=== FILE: README.md ===
# DL24M electronic load driver, modelled in Dafny

This project models the `DL24M` instrument driver. The driver talks to an
Atorch DL24M DC electronic load over a serial line.

- **Commands.** The host writes six-octet command frames `B1 B2 cmd p0 p1 B6`.
- **Replies.** Query registers (codes 0x10 and up) answer with eight-octet
  frames `CA CB cmd q0 q1 q2 CE CF`. Set registers are written without reading anything back.
- **Driver state.** It keeps the last reading of ten named keys and a cursor into
  the list of auxiliary keys.
- **Polling.** One `readAll` reads the five frequent keys, then either every auxiliary
  key or the next one in turn.
- **Commands with confirmation.** `command` writes a set register and re-reads a
  verification key, up to three times, until the stored reading equals the requested value.

The model is split into modules:

| module | file | contents |
|---|---|---|
| `Base` | base.dfy | octets, `Option`, `Result`, suffix and sequence helpers |
| `BigEndian` | bigendian.dfy | `int.from_bytes` / `int.to_bytes` with `byteorder='big'` |
| `Registers` | registers.dfy | register codes, `MUL`, `KEY_CMDS`, `FREQ_VALS`, `AUX_VALS`, `COMMANDS`, `VERIFY_CMD` |
| `Frames` | frames.dfy | command and response frames, and `getVal`'s acceptance test |
| `Transcoder` | transcoder.dfy | payload decoding (`getVal`) and value encoding (`setVal`) |
| `Channel` | channel.dfy | the serial input as a sequence of octets and lulls, and `read_bytes` |
| `Resync` | resync.dfy | reception of a reply, including the `CA CB` header search |
| `Driver` | driver.dfy | the device object and its operations |

**Serial input.** The input is a finite sequence of events.
- An event is an octet or a `Lull`, which is a silence longer than the 500 ms read timeout.
- `read_bytes(n)` returns `n` octets. If it meets a lull or the end of the
  input first, it times out; that timeout is what `writeFunction` turns into `False`.

**Device object.** A `Device` value holds the readings map, the cursor, the input still to
arrive and the log of frames written. Every operation returns the updated
object.

**Exceptions.** A Python exception that escapes an operation is a `Raised` outcome.
- `time(...)` raises `ValueError` for an out-of-range reply.
- `to_bytes` raises `OverflowError`.
- `bytearray` raises `ValueError`.

**Floats.** Python floats are exact reals.

**Three behaviours of the code that are easy to misread:**
- `__next_aux` increments before it returns. From a fresh object, the first shallow poll reads `temp`, not `cap_wh`.
- After `COMMAND_RESET`, the auxiliary keys are re-read whether or not the reset was confirmed.
- `getVal` checks only the first eight octets of a reply, so longer replies are accepted.

## Model

| member | source | states |
|---|---|---|
| Registers.Scale | instruments/dl24m.py:182-185 | the divisor is positive, and a register absent from `MUL` is scaled by 1000 |
| Registers.KeyCodesAreQueries | instruments/dl24m.py:56-67 | every key is read through a query register (0x10 and up), and no two keys share a register |
| Registers.DurationKeyCodes | instruments/dl24m.py:187 | the keys `time` and `set_timer` are exactly the keys whose register is decoded as a time of day |
| Registers.PollingListsPartitionKeys | instruments/dl24m.py:69-83 | each key is in exactly one of `FREQ_VALS` and `AUX_VALS` |
| Registers.PollingListsHaveNoRepeats | instruments/dl24m.py:69-83 | neither polling list names a key twice |
| Registers.KeyCode | instruments/dl24m.py:56-67 | `KEY_CMDS`: the register behind every key is a query register, 0x10 and up, so reading a key always waits for a reply |
| Registers.VerifyKey | instruments/dl24m.py:93-99 | `VERIFY_CMD`: only `COMMAND_SET_TIMER` is confirmed on a time-of-day key, and the reset is confirmed on `cap_ah`, which is not one of the auxiliary keys re-read after it |
| Registers.SetCode | instruments/dl24m.py:85-91 | every supported command writes a set register, below the query codes, so no reply is read for it |
| BigEndian.FromBigEndian | instruments/dl24m.py:195 | the value of `k` octets is below 256^k |
| BigEndian.ToBigEndian | instruments/dl24m.py:202-203 | `to_bytes(width)` gives `width` octets that read back as the same number |
| BigEndian.ToFromBigEndian | instruments/dl24m.py:195 | re-encoding a decoded octet string at its own width gives it back |
| BigEndian.ThreeOctets | instruments/dl24m.py:195 | the three payload octets read as `q0 * 65536 + q1 * 256 + q2` |
| Frames.CommandFrame | instruments/dl24m.py:217 | a command frame is six octets |
| Frames.ParseCommand | instruments/dl24m.py:217 | any frame that parses is the command frame of the parsed code and payload |
| Frames.CommandFrameRoundTrip | instruments/dl24m.py:217 | every command frame parses back to its code and two payload octets |
| Frames.ResponseFrame | instruments/dl24m.py:177-178 | a response frame is eight octets |
| Frames.Validate | instruments/dl24m.py:171-180 | nothing or an empty read is "no answer"; exactly the lone `6F` is "setval"; a reply is accepted exactly when its first eight octets are the response frame of the queried register, and then its payload is octets 3 to 5 |
| Frames.ResponseFrameValidates | instruments/dl24m.py:177-181 | a response frame for the queried register, followed by anything, is accepted with its payload |
| Frames.WrongEchoIsMismatch | instruments/dl24m.py:177-180 | a frame echoing another register is refused as a receive error |
| Frames.AckIsAckOnly | instruments/dl24m.py:174-176 | the lone acknowledgment octet is reported as such for every register |
| Transcoder.ClockOf | instruments/dl24m.py:202-203 | the clock built from a second count has that many seconds since midnight |
| Transcoder.ClockSecondsRoundTrip | instruments/dl24m.py:202-203 | counting a time's seconds and rebuilding the time gives the same time |
| Transcoder.Matches | instruments/dl24m.py:159 | Python `==` between the stored reading and the requested value: a time never equals a number |
| Transcoder.Promote | instruments/dl24m.py:159 | the reading a setting compares equal to is a time exactly when the setting is one |
| Transcoder.MatchesIsPromotedEquality | instruments/dl24m.py:159 | the stored reading equals the requested value exactly when it is that value with an int promoted to a float |
| Transcoder.DecodeValue | instruments/dl24m.py:182-195 | a time register decodes to hours, minutes and seconds, and raises ValueError exactly when one is out of range; any other register decodes to its 24-bit count divided by its scale |
| Transcoder.ScalarReadingRoundTrip | instruments/dl24m.py:195 | every 24-bit count `n` from a scalar register decodes to `n / scale` |
| Transcoder.DurationReadingRoundTrip | instruments/dl24m.py:187-191 | every in-range time of day decodes to itself |
| Transcoder.VoltageOfOneVolt | instruments/dl24m.py:47 | payload `00 03 E8` from the voltage register is 1.0 |
| Transcoder.ZeroPayloadIsZero | instruments/dl24m.py:195 | an all-zero payload from a scalar register is 0.0 |
| Transcoder.Trunc | instruments/dl24m.py:199-200 | `int` of `modf`'s integer part rounds toward zero |
| Transcoder.RoundHalfEven | instruments/dl24m.py:200 | `round` gives the nearest integer, with ties going to the even one |
| Transcoder.EncodeReal | instruments/dl24m.py:198-200 | a float is accepted exactly on [-0.005, 256); it becomes integer part and hundredths within 0.005 of the value; otherwise `bytearray` raises ValueError |
| Transcoder.EncodeSetting | instruments/dl24m.py:197-207 | a time becomes its seconds as two big-endian octets; a truthy int on the output switch becomes `[1, 0]`; any other int becomes itself in two big-endian octets; an OverflowError is raised exactly outside 0..65535 |
| Transcoder.HundredthsEncodeExactly | instruments/dl24m.py:198-200 | a value given to two decimals goes out as `[whole, hundredths]` |
| Transcoder.TimePayloadRoundTrip | instruments/dl24m.py:201-203 | a time's payload, read as seconds, gives the time back |
| Channel.Read | instruments/dl24m.py:222 | a read either takes exactly `n` octets, which are a prefix of the input, or times out, consuming at least one event |
| Channel.ReadSucceedsIff | instruments/dl24m.py:222 | a read succeeds exactly when `n` octets arrive before any lull |
| Channel.ReadAvailable | instruments/dl24m.py:222 | reading octets that are there returns exactly them |
| Channel.ReadOctetIsRead | instruments/dl24m.py:240 | the one-octet read of the header search is `read_bytes(1)` |
| Resync.FirstHeader | instruments/dl24m.py:236 | reference definition: the leftmost `CA CB` in an octet string, or none |
| Resync.HeardIsLullFreePrefix | instruments/dl24m.py:240-241 | the octets the header search can see are the input up to its first lull |
| Resync.Scan | instruments/dl24m.py:236-241 | the header search consumes part of the input, and always at least one event |
| Resync.ScanConsumesHeader | instruments/dl24m.py:236-241 | a successful search consumed only octets, and they end with `CA CB` |
| Resync.ScanFindsFirstHeader | instruments/dl24m.py:236-242 | the search stops right after the leftmost header heard before the first lull, with a pending `CA` counted; with no such header it times out at that lull |
| Resync.RepeatedSyncIsMatched | instruments/dl24m.py:236-241 | `x CA CA CB` is matched at the second `CA` |
| Resync.IndexOf | instruments/dl24m.py:226 | `bytes.index`: the first position holding the octet, and None exactly when the octet is absent |
| Resync.Complete | instruments/dl24m.py:242 | after a header the frame is `CA CB` plus the next six octets |
| Resync.CompleteFromBuffer | instruments/dl24m.py:229-233 | a header inside the misaligned read is completed with as many fresh octets as were skipped |
| Resync.Realign | instruments/dl24m.py:223-261 | (corrected search) recovery consumes input and returns only eight-octet frames that start with `CA CB` |
| Resync.Receive | instruments/dl24m.py:222-262 | (corrected search) a reply consumes input, at least one event, and is either a timeout or an eight-octet frame starting with `CA CB` |
| Resync.ReceiveAligned | instruments/dl24m.py:222-223 | an aligned reply is returned as it came |
| Resync.ReceivedFrameIsLastWindow | instruments/dl24m.py:222-262 | every returned frame is the last eight octets consumed, and no lull was consumed on the way |
| Resync.NoHeaderNoFrame | instruments/dl24m.py:222-262 | with no `CA CB` heard before the first lull, no frame is returned |
| Resync.Kept | instruments/dl24m.py:237-238 | a two-octet buffer that failed the header test keeps its second octet in front, so a `CA` in second place becomes the candidate header without another read; any other buffer is kept as it is |
| Resync.SeekSync | instruments/dl24m.py:239-240 | the inner loop ends holding exactly `CA`, unless the buffer already starts with one |
| Resync.ScanAsWritten | instruments/dl24m.py:236-241 | the outer loop as written consumes part of the input |
| Resync.OverlongBufferNeverSyncs | instruments/dl24m.py:236-241 | once the scratch buffer is three or more octets long and starts with `CA`, the loop as written can only time out |
| Resync.CaCaCbIsMissed | instruments/dl24m.py:236-241 | on `CA CA CB` the loop as written times out, and the corrected search finds the header |
| Resync.BufferIsDoomed | instruments/dl24m.py:236-241 | a scratch buffer `[x, CA]` after a wrong second octet, or one of three or more octets starting with `CA`, can only end in a timeout |
| Resync.AsWrittenFoundIsScan | instruments/dl24m.py:236-241 | whenever the loop as written finds a header, the corrected search finds the same one and leaves the same input |
| Resync.RealignAsWritten | instruments/dl24m.py:223-261 | recovery with the search loop as written consumes input and returns only eight-octet frames that start with `CA CB` |
| Resync.RealignAsWrittenAgrees | instruments/dl24m.py:223-261 | every frame the recovery as written returns is the frame the corrected recovery returns |
| Resync.ReceiveAsWritten | instruments/dl24m.py:222-262 | reception with the search loop as written consumes input and returns a timeout or an eight-octet frame starting with `CA CB` |
| Resync.ReceiveAsWrittenAgrees | instruments/dl24m.py:222-262 | every frame the reception as written returns, the corrected reception returns too, with the same input left |
| Driver.InitialDataIsZero | instruments/dl24m.py:106-117 | every key starts at zero, or at midnight for the two time registers |
| Driver.Init | instruments/dl24m.py:101-117 | a fresh object has a reading for every key, of the right kind, equal to zero or midnight; the cursor is 0 and nothing has been written |
| Driver.WriteFunction | instruments/dl24m.py:211-268 | (corrected search) the frame is written; a set register reads nothing and returns None; a query consumes input and returns an aligned eight-octet frame or `False` |
| Driver.AlignedReplyIsReturned | instruments/dl24m.py:222-223 | a query answered by an aligned frame returns that frame and consumes exactly it |
| Driver.SilenceIsFailure | instruments/dl24m.py:222-268 | with no header heard before the line falls silent, a query returns `False` |
| Driver.GetVal | instruments/dl24m.py:169-195 | one query frame is written and the readings are untouched; a set register gives "no answer"; a time reading comes exactly from a time register; only a time register can raise, with ValueError |
| Driver.FrameIsDecoded | instruments/dl24m.py:169-195 | a response frame at the head of the line is consumed, and its payload decoded |
| Driver.ReadingComesFromFrame | instruments/dl24m.py:169-195 | every reading is the decoding of a response frame for the queried register that the line delivered |
| Driver.SilenceIsNoAnswer | instruments/dl24m.py:170-173 | with no header heard before the line falls silent, `getVal` returns `False` |
| Driver.VoltageExample | instruments/dl24m.py:170-195 | `CA CB 11 00 03 E8 CE CF` answers a voltage query with 1.0 |
| Driver.TimeExample | instruments/dl24m.py:187-191 | `CA CB 13 01 02 03 CE CF` answers a time query with 1:02:03 |
| Driver.UpdateVal | instruments/dl24m.py:146-149 | only `data[key]` can change, and only when `getVal` did not return `False`; a reading is stored as read; consistency of the map is kept; it raises only for a key holding a time of day, and then only ValueError |
| Driver.ZeroIsStored | instruments/dl24m.py:146-149 | a reading of zero is stored like any other |
| Driver.Refresh | instruments/dl24m.py:142-149 | `update_vals` as a recursion over `update_val`: a run raises only ValueError, and only when a time-of-day key is among the keys |
| Driver.RefreshLog | instruments/dl24m.py:142-149 | a run that ends normally writes every key's query in order; one that raises stops right after the query of the time-of-day key whose reading raised |
| Driver.RefreshConsumes | instruments/dl24m.py:142-149 | a run only consumes input and keeps the cursor |
| Driver.RefreshKeeps | instruments/dl24m.py:142-149 | a run changes no reading outside its keys and keeps every key's reading of the right kind |
| Driver.UpdateVals | instruments/dl24m.py:142-144 | the loop's result is `Driver.Refresh`: `update_val` on each key from the state the previous one left, the first exception escaping; the keys are queried in order, one frame each, and keys outside the list keep their readings; an escaping exception is the ValueError of a time-of-day key, and that key's query is the last frame written |
| Driver.NextAux | instruments/dl24m.py:302-306 | the cursor moves to `(i + 1) mod 5` |
| Driver.AdvanceWraps | instruments/dl24m.py:302-306 | `n` cursor moves from `i` end at `(i + n) mod 5` |
| Driver.AuxKeys | instruments/dl24m.py:135-138 | a deep poll reads every auxiliary key; a shallow poll reads one auxiliary key, never the one at the cursor |
| Driver.ReadAux | instruments/dl24m.py:135-138 | the result is `Driver.Refresh` of the poll's auxiliary keys, from the state with the cursor already moved on a shallow poll; the auxiliary keys of the poll are queried; a shallow poll moves the cursor even when the read then raises |
| Driver.ReadAll | instruments/dl24m.py:130-140 | after the flush, `Driver.Refresh` of the frequent keys; if it raises, that is the result, and otherwise `Driver.Refresh` of the auxiliary keys from the state it left, the cursor moved first on a shallow poll; the frequent keys are queried before the auxiliary ones; a deep poll reads every auxiliary key and leaves the cursor; a shallow poll moves the cursor, then reads the key it lands on |
| Driver.Schedule | instruments/dl24m.py:138 | poll `j` of a run reads the auxiliary key at the cursor after `j + 1` moves |
| Driver.ScheduleWraps | instruments/dl24m.py:138 | poll `j` of a run from cursor `i` reads auxiliary key `(i + j + 1) mod 5` |
| Driver.FirstShallowPollReadsTemp | instruments/dl24m.py:105 | from a fresh object, the first shallow poll reads `temp` |
| Driver.ScheduleIsRotation | instruments/dl24m.py:138 | five polls from cursor `i` read `AUX_VALS` rotated to start after position `i` |
| Driver.FivePollsCoverAux | instruments/dl24m.py:302-306 | any five consecutive shallow polls read each auxiliary key exactly once |
| Driver.ShallowPoll | instruments/dl24m.py:130-140 | one `readAll(False)`, as the polling schedule needs it: the frequent queries, then the query of the auxiliary key the cursor moves to; the cursor moves once; the object stays consistent |
| Driver.Polls | instruments/dl24m.py:130-140 | repeated shallow polls write the frequent keys then one auxiliary key per poll, following the schedule, and the cursor advances once per poll |
| Driver.SetVal | instruments/dl24m.py:197-209 | `setVal` raises exactly when the value cannot be encoded, and then nothing is written; otherwise the command frame with the encoded payload is written |
| Driver.TurnOffFrame | instruments/dl24m.py:270-272 | `turnOFF` writes `B1 B2 01 00 00 B6` |
| Driver.TurnOnFrame | instruments/dl24m.py:204-205 | `ENABLED` on the output switch is sent as `[1, 0]`, the frame `B1 B2 01 01 00 B6`, not as the register value's two octets |
| Driver.TwelveThirtyFourFrame | instruments/dl24m.py:198-200 | 12.34 on the cut-off voltage writes `B1 B2 03 0C 22 B6` |
| Driver.IssueVerify | instruments/dl24m.py:155-158 | `n` rounds write the command frame and the verification query, alternately, `2n` frames |
| Driver.Round | instruments/dl24m.py:156-158 | one round, `setVal` then `update_val` of the verification key, raises only when that key holds a time of day, and then only ValueError |
| Driver.RoundEffects | instruments/dl24m.py:156-158 | one round writes the command frame and then the verification query, keeps the cursor, changes no reading but the verification key's, and keeps every key's reading of the right kind |
| Driver.RoundsBehave | instruments/dl24m.py:156-158 | every round of a command, from any state, writes exactly its two frames, consumes input and keeps the cursor |
| Driver.Confirm | instruments/dl24m.py:155-164 | at most three rounds; each round starts from the state the previous one left; `observed` holds the verification key's stored reading after each round; every reading but the last missed, and a run that stops before three rounds stops on a match; the final state holds the last observed reading; one command frame and one query per round; a round that raises ends the loop with that round's outcome while the loop was still pending (fewer than three rounds, no match yet); when no round can raise, the loop does not raise |
| Driver.Request | instruments/dl24m.py:155-164 | the retry loop for one encoded value: each round is `setVal` followed by `update_val` of the verification key, with the guarantees of `Driver.Confirm`; a raised outcome is the outcome of the round from the latest state, the loop was still pending, and it is the ValueError of a verification key that holds a time of day |
| Driver.Settle | instruments/dl24m.py:166-167 | after a reset that did not raise, the result is `Driver.Refresh` of the auxiliary keys from the confirmed state, so each reply is stored as `update_val` stores it, and every key outside the auxiliary list, the verification key among them, keeps its reading; any other outcome passes through unchanged; the re-read can only raise at the timer, the last auxiliary key, so after a reset every auxiliary query is written either way, and only ValueError escapes |
| Driver.Perform | instruments/dl24m.py:155-167 | once the value is encoded: only the timer's rounds can raise, and a raise ends a pending loop with that round's ValueError; a reset completes its rounds (three, or up to a match), and its result is `Driver.Refresh` of the auxiliary keys from the last round's state, which writes every auxiliary query and raises at most ValueError |
| Driver.Command | instruments/dl24m.py:151-167 | an unsupported command returns `False` with no traffic; an unencodable value raises in the first round with nothing written; otherwise each round is `setVal` then `update_val` from the previous round's state, `observed` are the stored verification readings, the loop stops early only on a match, the final state holds the last reading, and a reset then re-reads every auxiliary key whether or not it was confirmed; a supported command other than the timer and the reset raises only when its value cannot be encoded; a raising timer command ends with the ValueError of the round that raised while the loop was pending; a reset completes its rounds, and its result is `Driver.Refresh` of the auxiliary keys from the last round's state, which writes every auxiliary query and raises at most ValueError |

## Left out

- `main.py`, the `Instrument` base class, `probe`, `__setup_device`, `close` and `__is_number` are left out. They configure pyvisa and select an instrument; they hold none of the driver's logic.
- `print` and `sleep` are left out: they have no effect on the state or on the traffic. This assumes the base class's command tags are strings, as `Registers.OtherCommand` does: otherwise `"retry " + command` at instruments/dl24m.py:161 would raise TypeError.
- Timing of the serial line is left out. A silence longer than the read timeout is one `Lull` event, and how long anything takes is not modelled.
- Failures of `write_raw` are left out; only read timeouts reach the `except` of `writeFunction`.
- Floating point is left out: floats are exact reals. `modf`, `round` and the division by the scale are exact, so binary rounding in them is not modelled.
- The `0` stored for `temp` by `__init__` is an int; the model stores `0.0`, which is equal under Python `==`.
- `__clear_device` reads `bytes_in_buffer` octets. That count is the `pending` parameter of `ReadAll`, and its errors are swallowed as in the source.
- `setVal`'s boolean result (`ret == None`) is not modelled; no caller uses it.
- Resync.Realign: uses the corrected header search `Resync.Scan`, not the loops as written at instruments/dl24m.py:236-241, 245-250 and 255-260. After a misaligned read followed by `CA CA CB`, it returns the frame where the code as written times out. `Resync.RealignAsWritten` is the recovery as written, and `Resync.RealignAsWrittenAgrees` proves that every frame it returns is the one `Resync.Realign` returns.
- Resync.Receive: built on `Resync.Realign`, so it differs from the code as written on the same input. `Resync.ReceiveAsWritten` and `Resync.ReceiveAsWrittenAgrees` give the reception as written and its agreement on every frame it returns.
- Driver.WriteFunction: built on `Resync.Receive`. Where the code as written returns `False` on a misaligned read followed by `CA CA CB`, the model returns the frame. The difference reaches every member built on it: on that input `Driver.GetVal`, `Driver.UpdateVal`, `Driver.ReadAll` and `Driver.Command` go on with the reading the frame carries, and a command can match, where the code as written gets `False` from the read.
- Driver.WriteFunction: requires a two-octet payload. Every caller passes two values; with another count the frame would have another length.
- Transcoder.EncodeSetting: a `time` has no microseconds in the model. The source drops them when it encodes a time, and the timer reads back whole seconds. A requested time with microseconds therefore never compares equal to the reading, and `command` then always runs all three rounds.
- Driver.Command: encodes the value once, before the rounds. The source encodes it in every round, but the value never changes, so `setVal` raises in the first round or never.
- Driver.ShallowPoll: states only the frames, the cursor and consistency of one shallow poll; the readings it stores are stated by `Driver.ReadAll`, which it calls.
- Driver.Polls: a run of `readAll(False)` calls with nothing in between; other calls interleaved with polling are not modelled.
- Driver.Confirm: after three rounds, it does not say whether the last reading matched; the source does not either.

## Findings

| source | as written | input that shows it | evidently intended | confidence | as-written member | corrected member |
|---|---|---|---|---|---|---|
| instruments/dl24m.py:236-241 | After a `CA` followed by a wrong octet, the loop keeps `[second octet, 0x00]`. If that octet is itself `CA`, the inner loop is skipped and the next octet is appended. The buffer is then three octets long, `len(bytee) != 2` stays true, and the loop reads until the line times out. The same code is at lines 245-250 and 255-260. | a misaligned read followed by `CA CA CB` and the rest of the frame | the header is matched at the second `CA` | high, not executed | Resync.CaCaCbIsMissed | Resync.ScanFindsFirstHeader |

=== FILE: base.dfy ===
/** Shared vocabulary: octets and the two failure-carrying wrappers used across the model. */
module Base {

  /** An octet on the serial line. */
  type byte = x: int | 0 <= x < 0x100

  datatype Option<T> = None | Some(value: T)

  datatype Result<T, E> = Ok(value: T) | Err(error: E)

  /** `rest` is what is left of `s` after some prefix of it was consumed. */
  predicate Suffix<T(==)>(rest: seq<T>, s: seq<T>) {
    |rest| <= |s| && rest == s[|s| - |rest|..]
  }

  /** Consuming twice consumes a prefix. */
  lemma SuffixTransitive<T>(a: seq<T>, b: seq<T>, c: seq<T>)
    requires Suffix(a, b) && Suffix(b, c)
    ensures Suffix(a, c)
  {
    assert c[|c| - |b|..][|b| - |a|..] == c[|c| - |a|..];
  }

  /** Rotating a sequence permutes it. */
  lemma RotationPermutes<T>(s: seq<T>, cut: nat)
    requires cut <= |s|
    ensures multiset(s[cut..] + s[..cut]) == multiset(s)
  {
    assert s == s[..cut] + s[cut..];
  }

  /** No element of `s` occurs at two positions. */
  predicate Distinct<T(==)>(s: seq<T>) {
    forall i, j :: 0 <= i < j < |s| ==> s[i] != s[j]
  }

  /** In a sequence without repeats, each of its elements is counted once. */
  lemma {:induction false} DistinctCountsOnce<T>(s: seq<T>, x: T)
    requires Distinct(s) && x in s
    ensures multiset(s)[x] == 1
    decreases |s|
  {
    assert s == [s[0]] + s[1..];
    if s[0] == x {
      assert x !in s[1..] by {
        forall j | 0 <= j < |s[1..]| ensures s[1..][j] != x {
          assert s[1..][j] == s[j + 1];
        }
      }
    } else {
      DistinctCountsOnce(s[1..], x);
    }
  }

  /** `out` built as `a + b + c` is `a` followed by `bc` whenever `bc` is `b + c`. */
  lemma Regroup<T>(a: seq<T>, b: seq<T>, c: seq<T>, out: seq<T>, bc: seq<T>)
    requires out == a + b + c && bc == b + c
    ensures out == a + bc
  {
  }

  /** Regrouping a four-part concatenation. */
  lemma ConcatRegroup<T>(a: seq<T>, b: seq<T>, c: seq<T>, d: seq<T>)
    ensures a + b + c + d == a + (b + c + d)
    ensures a + b + c + d == a + (b + (c + d))
  {
  }
}

=== FILE: bigendian.dfy ===
/** Unsigned big-endian integers, as Python's `int.from_bytes` / `int.to_bytes` with `byteorder='big'`. */
module BigEndian {
  import opened Base

  function Pow256(n: nat): (p: nat)
    ensures p >= 1
  {
    if n == 0 then 1 else 256 * Pow256(n - 1)
  }

  /** The unsigned value of an octet string, most significant octet first. */
  function FromBigEndian(bs: seq<byte>): (n: nat)
    ensures n < Pow256(|bs|)
  {
    if |bs| == 0 then 0
    else
      var hi := FromBigEndian(bs[..|bs| - 1]);
      assert hi * 256 <= (Pow256(|bs| - 1) - 1) * 256;
      hi * 256 + bs[|bs| - 1]
  }

  /** `n.to_bytes(width, 'big')`, defined exactly where Python does not raise OverflowError. */
  function ToBigEndian(n: nat, width: nat): (bs: seq<byte>)
    requires n < Pow256(width)
    ensures |bs| == width
    ensures FromBigEndian(bs) == n
  {
    if width == 0 then []
    else
      var front := ToBigEndian(n / 256, width - 1);
      assert (front + [n % 256])[..width - 1] == front;
      front + [n % 256]
  }

  /** The other direction of the round trip: re-encoding a decoded octet string gives it back. */
  lemma {:induction false} ToFromBigEndian(bs: seq<byte>)
    ensures ToBigEndian(FromBigEndian(bs), |bs|) == bs
  {
    if |bs| > 0 {
      var front := bs[..|bs| - 1];
      var n := FromBigEndian(bs);
      assert n / 256 == FromBigEndian(front);
      assert n % 256 == bs[|bs| - 1];
      ToFromBigEndian(front);
      assert front + [bs[|bs| - 1]] == bs;
    }
  }

  /** Two octets read as `p0 * 256 + p1`. */
  lemma TwoOctets(bs: seq<byte>)
    requires |bs| == 2
    ensures FromBigEndian(bs) == (bs[0] as int) * 256 + bs[1]
  {
    assert bs[..1][..0] == [];
  }

  /** Three octets read as `p0 * 65536 + p1 * 256 + p2`. */
  lemma ThreeOctets(bs: seq<byte>)
    requires |bs| == 3
    ensures FromBigEndian(bs) == (bs[0] as int) * 65536 + (bs[1] as int) * 256 + bs[2]
  {
    TwoOctets(bs[..2]);
  }
}

=== FILE: channel.dfy ===
/**
 * The serial input as a finite sequence of events: octets, and lulls longer
 * than the 500 ms read timeout. `Read(n, s)` is `read_bytes(n)`: it returns
 * `n` octets, or times out on reaching a lull or the end of the input, in
 * which case the octets taken so far are lost.
 */
module Channel {
  import opened Base

  datatype Rx = Byte(b: byte) | Lull

  /** The events that deliver exactly the octets `bs`. */
  function Bytes(bs: seq<byte>): (s: seq<Rx>)
    ensures |s| == |bs|
  {
    seq(|bs|, i requires 0 <= i < |bs| => Byte(bs[i]))
  }

  lemma BytesAppend(a: seq<byte>, b: seq<byte>)
    ensures Bytes(a + b) == Bytes(a) + Bytes(b)
  {
  }

  datatype ReadResult = Got(octets: seq<byte>, rest: seq<Rx>) | TimedOut(rest: seq<Rx>)

  function Read(n: nat, s: seq<Rx>): (r: ReadResult)
    ensures Suffix(r.rest, s)
    ensures r.Got? ==> |r.octets| == n && s == Bytes(r.octets) + r.rest
    ensures r.TimedOut? ==> |r.rest| < |s| || s == []
    decreases n
  {
    if n == 0 then Got([], s)
    else if |s| == 0 then TimedOut([])
    else
      match s[0]
      case Lull => TimedOut(s[1..])
      case Byte(b) =>
        match Read(n - 1, s[1..])
        case Got(bs, rest) =>
          var out := [b] + bs;
          assert Bytes(out) == [Byte(b)] + Bytes(bs);
          assert s == [Byte(b)] + (Bytes(bs) + rest);
          Got(out, rest)
        case TimedOut(rest) => TimedOut(rest)
  }

  /** A single-octet read, written out without recursion; `ReadOctetIsRead` ties it to `Read(1, _)`. */
  function ReadOctet(s: seq<Rx>): (r: ReadResult)
    ensures Suffix(r.rest, s)
    ensures r.Got? ==> |r.octets| == 1 && |r.rest| == |s| - 1 && s[0] == Byte(r.octets[0])
    ensures r.TimedOut? ==> (s == [] && r.rest == []) || (s[0] == Lull && r.rest == s[1..])
  {
    if |s| == 0 then TimedOut([])
    else
      match s[0]
      case Lull => TimedOut(s[1..])
      case Byte(b) => Got([b], s[1..])
  }

  lemma ReadOctetIsRead(s: seq<Rx>)
    ensures ReadOctet(s) == Read(1, s)
  {
    if |s| > 0 && s[0].Byte? {
      assert Read(0, s[1..]) == Got([], s[1..]);
    }
  }

  /** The first `n` events are all octets. */
  predicate Ready(n: nat, s: seq<Rx>) {
    n <= |s| && forall i :: 0 <= i < n ==> s[i].Byte?
  }

  /** A read succeeds exactly when `n` octets arrive before any lull. */
  lemma {:induction false} ReadSucceedsIff(n: nat, s: seq<Rx>)
    ensures Read(n, s).Got? <==> Ready(n, s)
    decreases n
  {
    if n > 0 && |s| > 0 && s[0].Byte? {
      ReadSucceedsIff(n - 1, s[1..]);
      if Ready(n - 1, s[1..]) {
        forall i | 0 <= i < n ensures s[i].Byte? {
          if i > 0 { assert s[i] == s[1..][i - 1]; }
        }
      } else if Ready(n, s) {
        forall i | 0 <= i < n - 1 ensures s[1..][i].Byte? {
          assert s[1..][i] == s[i + 1];
        }
      }
    }
  }

  /** Reading octets that are there takes exactly them. */
  lemma ReadAvailable(bs: seq<byte>, rest: seq<Rx>)
    ensures Read(|bs|, Bytes(bs) + rest) == Got(bs, rest)
  {
    var s := Bytes(bs) + rest;
    ReadSucceedsIff(|bs|, s);
    assert Ready(|bs|, s);
    var r := Read(|bs|, s);
    assert Bytes(r.octets) == s[..|bs|] == Bytes(bs);
    assert r.octets == bs by {
      forall i | 0 <= i < |bs| ensures r.octets[i] == bs[i] {
        assert Bytes(r.octets)[i] == Byte(r.octets[i]);
      }
    }
  }
}

=== FILE: driver.dfy ===
/**
 * The `DL24M` object. A `Device` holds the readings map `data`, the
 * auxiliary-poll cursor `auxIndex`, the serial input still to arrive (`rx`)
 * and the command frames written so far (`tx`). Every operation returns the
 * updated object; a Python exception that escapes an operation is `Raised`,
 * together with the object as it stood when the exception was raised.
 */
module Driver {
  import opened Base
  import opened BigEndian
  import opened Registers
  import opened Frames
  import opened Channel
  import opened Resync
  import opened Transcoder

  datatype Device = Device(data: map<Key, Value>, auxIndex: AuxIndex, rx: seq<Rx>, tx: seq<seq<byte>>)

  /** Every key has a reading, and it is a time of day exactly for the duration registers. */
  predicate Consistent(dev: Device) {
    forall k: Key :: k in dev.data && (dev.data[k].Duration? <==> IsDurationKey(k))
  }

  /** `d'` holds the same reading as `d` for key `k`, or lacks it as `d` does. */
  predicate SameAt(d: map<Key, Value>, d': map<Key, Value>, k: Key) {
    (k in d' <==> k in d) && (k in d ==> d'[k] == d[k])
  }

  /** The readings `__init__` starts from: zero, and midnight for the two duration registers. */
  const INITIAL_DATA: map<Key, Value> :=
    map[IsOn := Scalar(0.0), Voltage := Scalar(0.0), Current := Scalar(0.0), Time := Duration(Clock(0, 0, 0)),
        CapAh := Scalar(0.0), CapWh := Scalar(0.0), Temp := Scalar(0.0), SetCurrent := Scalar(0.0),
        SetVoltage := Scalar(0.0), SetTimer := Duration(Clock(0, 0, 0))]

  lemma InitialDataIsZero(k: Key)
    ensures k in INITIAL_DATA
    ensures INITIAL_DATA[k] == if IsDurationKey(k) then Duration(Clock(0, 0, 0)) else Scalar(0.0)
  {
    match k
    case IsOn =>
    case Voltage =>
    case Current =>
    case Time =>
    case CapAh =>
    case CapWh =>
    case Temp =>
    case SetCurrent =>
    case SetVoltage =>
    case SetTimer =>
  }

  /** The object `__init__` builds: every reading zero, cursor at 0, nothing sent yet. */
  function Init(rx: seq<Rx>): (dev: Device)
    ensures Consistent(dev) && dev.auxIndex == 0 && dev.rx == rx && dev.tx == []
    ensures forall k: Key :: Matches(dev.data[k], if IsDurationKey(k) then TimeOfDay(Clock(0, 0, 0)) else Int(0))
  {
    assert forall k: Key :: k in INITIAL_DATA && INITIAL_DATA[k] == if IsDurationKey(k) then Duration(Clock(0, 0, 0)) else Scalar(0.0) by {
      forall k: Key ensures k in INITIAL_DATA && INITIAL_DATA[k] == if IsDurationKey(k) then Duration(Clock(0, 0, 0)) else Scalar(0.0) {
        InitialDataIsZero(k);
      }
    }
    Device(INITIAL_DATA, 0, rx, [])
  }

  // ---------------------------------------------------------------- writeFunction

  datatype Exchange = Exchange(reply: Reply, dev: Device)

  /**
   * Writes the command frame; for a query code (0x10 and above) then receives
   * an eight-octet response, `Failed` when the line times out first.
   */
  function WriteFunction(dev: Device, cmd: byte, payload: seq<byte>): (r: Exchange)
    requires |payload| == 2
    ensures r.dev.tx == dev.tx + [CommandFrame(cmd, payload)]
    ensures r.dev.data == dev.data && r.dev.auxIndex == dev.auxIndex
    ensures Suffix(r.dev.rx, dev.rx)
    ensures cmd < FIRST_QUERY ==> r.reply == NoData && r.dev.rx == dev.rx
    ensures cmd >= FIRST_QUERY ==> r.reply != NoData && (|r.dev.rx| < |dev.rx| || dev.rx == [])
    ensures r.reply.Data? ==> |r.reply.octets| == RESPONSE_LEN && r.reply.octets[..2] == [SYNC0, SYNC1]
  {
    var sent := dev.(tx := dev.tx + [CommandFrame(cmd, payload)]);
    if cmd < FIRST_QUERY then Exchange(NoData, sent)
    else
      match Receive(dev.rx)
      case Frame(f, rest) => Exchange(Data(f), sent.(rx := rest))
      case Timeout(rest) => Exchange(Failed, sent.(rx := rest))
  }

  /** A query answered by an aligned response gets exactly that response. */
  lemma AlignedReplyIsReturned(dev: Device, cmd: byte, payload: seq<byte>, f: seq<byte>, rest: seq<Rx>)
    requires |payload| == 2 && cmd >= FIRST_QUERY
    requires |f| == RESPONSE_LEN && f[0] == SYNC0 && f[1] == SYNC1 && dev.rx == Bytes(f) + rest
    ensures WriteFunction(dev, cmd, payload).reply == Data(f)
    ensures WriteFunction(dev, cmd, payload).dev.rx == rest
  {
    ReceiveAligned(f, rest);
  }

  /** With no `CA CB` heard before the line falls silent, a query fails. */
  lemma SilenceIsFailure(dev: Device, cmd: byte, payload: seq<byte>)
    requires |payload| == 2 && cmd >= FIRST_QUERY
    requires forall k :: !HeaderAt(Heard(dev.rx), k)
    ensures WriteFunction(dev, cmd, payload).reply == Failed
  {
    NoHeaderNoFrame(dev.rx);
  }

  // ---------------------------------------------------------------- getVal

  /** What `getVal` produced: a reading, `False` for a refused reply, or an escaping exception. */
  datatype Reading = Reading(v: Value) | Rejected(why: ReadError) | Crashed(exc: Exception)

  datatype Polled = Polled(reading: Reading, dev: Device)

  /** Queries register `code`, validates the reply and decodes its payload. */
  function GetVal(dev: Device, code: byte): (r: Polled)
    ensures r.dev.tx == dev.tx + [QueryFrame(code)]
    ensures r.dev.data == dev.data && r.dev.auxIndex == dev.auxIndex
    ensures Suffix(r.dev.rx, dev.rx)
    ensures code < FIRST_QUERY ==> r.reading == Rejected(NoResponse) && r.dev.rx == dev.rx
    ensures r.reading.Rejected? ==> r.reading.why != AckOnly
    ensures r.reading.Reading? ==> (r.reading.v.Duration? <==> IsDuration(code))
    ensures r.reading.Crashed? ==> IsDuration(code) && r.reading.exc == ValueError
  {
    var x := WriteFunction(dev, code, [0, 0]);
    match Validate(x.reply, code)
    case Err(e) => Polled(Rejected(e), x.dev)
    case Ok(payload) =>
      match DecodeValue(code, payload)
      case Ok(v) => Polled(Reading(v), x.dev)
      case Err(e) => Polled(Crashed(e), x.dev)
  }

  /** A response frame for `code` at the head of the line is decoded and consumed. */
  lemma FrameIsDecoded(dev: Device, code: byte, payload: seq<byte>, rest: seq<Rx>)
    requires code >= FIRST_QUERY && |payload| == 3
    requires dev.rx == Bytes(ResponseFrame(code, payload)) + rest
    ensures GetVal(dev, code).dev.rx == rest
    ensures GetVal(dev, code).reading ==
            match DecodeValue(code, payload) case Ok(v) => Reading(v) case Err(e) => Crashed(e)
  {
    var f := ResponseFrame(code, payload);
    AlignedReplyIsReturned(dev, code, [0, 0], f, rest);
    ResponseFrameValidates(code, payload, []);
    assert f + [] == f;
  }

  /**
   * Every reading is the decoding of a response frame for the queried
   * register that the line delivered, possibly after discarded octets.
   */
  lemma ReadingComesFromFrame(dev: Device, code: byte) returns (junk: seq<byte>, payload: seq<byte>)
    ensures |payload| == 3
    ensures GetVal(dev, code).reading.Reading? ==>
              && dev.rx == Bytes(junk + ResponseFrame(code, payload)) + GetVal(dev, code).dev.rx
              && DecodeValue(code, payload) == Ok(GetVal(dev, code).reading.v)
  {
    junk, payload := [], [0, 0, 0];
    if GetVal(dev, code).reading.Reading? {
      assert Receive(dev.rx).Frame?;
      var f := Receive(dev.rx).octets;
      junk := ReceivedFrameIsLastWindow(dev.rx);
      payload := f[3..6];
      assert Validate(Data(f), code).Ok?;
      assert f == f[..RESPONSE_LEN] == ResponseFrame(code, payload);
    }
  }

  /** With no `CA CB` heard before the line falls silent, `getVal` reports no answer. */
  lemma SilenceIsNoAnswer(dev: Device, code: byte)
    requires forall k :: !HeaderAt(Heard(dev.rx), k)
    ensures GetVal(dev, code).reading == Rejected(NoResponse)
  {
    if code >= FIRST_QUERY {
      SilenceIsFailure(dev, code, [0, 0]);
    }
  }

  /** `CA CB 11 00 03 E8 CE CF` answers a voltage query with 1.0 V. */
  lemma VoltageExample(dev: Device, rest: seq<Rx>)
    requires dev.rx == Bytes([0xCA, 0xCB, 0x11, 0x00, 0x03, 0xE8, 0xCE, 0xCF]) + rest
    ensures GetVal(dev, VOLTAGE).reading == Reading(Scalar(1.0))
  {
    var payload: seq<byte> := [0x00, 0x03, 0xE8];
    assert ResponseFrame(VOLTAGE, payload) == [0xCA, 0xCB, 0x11, 0x00, 0x03, 0xE8, 0xCE, 0xCF];
    FrameIsDecoded(dev, VOLTAGE, payload, rest);
    VoltageOfOneVolt();
  }

  /** `CA CB 13 01 02 03 CE CF` answers a time query with 1:02:03. */
  lemma TimeExample(dev: Device, rest: seq<Rx>)
    requires dev.rx == Bytes([0xCA, 0xCB, 0x13, 0x01, 0x02, 0x03, 0xCE, 0xCF]) + rest
    ensures GetVal(dev, TIME).reading == Reading(Duration(Clock(1, 2, 3)))
  {
    var payload: seq<byte> := [0x01, 0x02, 0x03];
    assert ResponseFrame(TIME, payload) == [0xCA, 0xCB, 0x13, 0x01, 0x02, 0x03, 0xCE, 0xCF];
    FrameIsDecoded(dev, TIME, payload, rest);
  }

  // ---------------------------------------------------------------- update_val, update_vals

  datatype Outcome = Normal(dev: Device) | Raised(exc: Exception, dev: Device)

  /** Reads `key`'s register and stores the result, unless `getVal` returned `False`. */
  function UpdateVal(dev: Device, key: Key): (r: Outcome)
    ensures r.dev.tx == dev.tx + [QueryFrame(KeyCode(key))]
    ensures r.dev.auxIndex == dev.auxIndex && Suffix(r.dev.rx, dev.rx)
    ensures r.dev.rx == GetVal(dev, KeyCode(key)).dev.rx
    ensures r.Raised? <==> GetVal(dev, KeyCode(key)).reading.Crashed?
    ensures r.Raised? ==> IsDurationKey(key) && r.exc == ValueError
    ensures forall k :: k != key ==> SameAt(dev.data, r.dev.data, k)
    ensures !GetVal(dev, KeyCode(key)).reading.Reading? ==> r.dev.data == dev.data
    ensures GetVal(dev, KeyCode(key)).reading.Reading? ==>
              key in r.dev.data && r.dev.data[key] == GetVal(dev, KeyCode(key)).reading.v
    ensures Consistent(dev) ==> Consistent(r.dev)
  {
    var p := GetVal(dev, KeyCode(key));
    DurationKeyCodes(key);
    match p.reading
    case Reading(v) => Normal(p.dev.(data := p.dev.data[key := v]))
    case Rejected(_) => Normal(p.dev)
    case Crashed(e) => Raised(e, p.dev)
  }

  /** A reading of zero is a value like any other: it is stored. */
  lemma ZeroIsStored(dev: Device, rest: seq<Rx>)
    requires dev.rx == Bytes(ResponseFrame(VOLTAGE, [0, 0, 0])) + rest
    ensures UpdateVal(dev, Voltage) == Normal(dev.(data := dev.data[Voltage := Scalar(0.0)],
                                                    rx := rest,
                                                    tx := dev.tx + [QueryFrame(VOLTAGE)]))
  {
    FrameIsDecoded(dev, VOLTAGE, [0, 0, 0], rest);
    ZeroPayloadIsZero(VOLTAGE);
  }

  /** The query frames for `keys`, in order. */
  function Queries(keys: seq<Key>): (frames: seq<seq<byte>>)
    ensures |frames| == |keys|
    ensures forall i :: 0 <= i < |keys| ==> frames[i] == QueryFrame(KeyCode(keys[i]))
  {
    if keys == [] then [] else [QueryFrame(KeyCode(keys[0]))] + Queries(keys[1..])
  }

  lemma QueriesAppend(a: seq<Key>, b: seq<Key>)
    ensures Queries(a + b) == Queries(a) + Queries(b)
  {
  }

  /**
   * `out` is `log` followed by the queries of `keys` up to and including a
   * time-of-day key, the one the log's growth points at.
   */
  predicate StopsAtTimeKey(log: seq<seq<byte>>, keys: seq<Key>, out: seq<seq<byte>>) {
    && |log| < |out| <= |log| + |keys|
    && IsDurationKey(keys[|out| - |log| - 1])
    && out == log + Queries(keys[..|out| - |log|])
  }

  /** Stopping right after the query of the time-of-day key `keys[i]`. */
  lemma StopAt(log: seq<seq<byte>>, keys: seq<Key>, i: nat, out: seq<seq<byte>>)
    requires i < |keys| && IsDurationKey(keys[i]) && out == log + Queries(keys[..i + 1])
    ensures StopsAtTimeKey(log, keys, out)
  {
    assert |out| - |log| - 1 == i;
  }

  /**
   * `update_vals` as a recursion: `UpdateVal` of the first key, then the
   * other keys from the state it leaves; an exception ends the run.
   */
  function Refresh(dev: Device, keys: seq<Key>): (r: Outcome)
    ensures r.Raised? ==> r.exc == ValueError && exists k :: k in keys && IsDurationKey(k)
    decreases |keys|
  {
    if keys == [] then Normal(dev)
    else
      var step := UpdateVal(dev, keys[0]);
      if step.Raised? then step else Refresh(step.dev, keys[1..])
  }

  /** `Refresh` of the keys from position `i` on, one step unfolded. */
  lemma RefreshStep(d: Device, keys: seq<Key>, i: nat)
    requires i < |keys|
    ensures Refresh(d, keys[i..]) ==
              var step := UpdateVal(d, keys[i]);
              if step.Raised? then step else Refresh(step.dev, keys[i + 1..])
  {
    assert keys[i..][0] == keys[i] && keys[i..][1..] == keys[i + 1..];
  }

  /** The queries of the first `m + 1` keys: the first key's query, then those of the next `m`. */
  lemma QueriesCons(keys: seq<Key>, m: nat)
    requires m < |keys|
    ensures Queries(keys[..m + 1]) == [QueryFrame(KeyCode(keys[0]))] + Queries(keys[1..][..m])
  {
    assert keys[..m + 1] == [keys[0]] + keys[1..][..m];
    QueriesAppend([keys[0]], keys[1..][..m]);
  }

  /** A stop at a time-of-day key after one more query is a stop of the longer run. */
  lemma StopsShift(log: seq<seq<byte>>, keys: seq<Key>, out: seq<seq<byte>>)
    requires |keys| > 0 && StopsAtTimeKey(log + [QueryFrame(KeyCode(keys[0]))], keys[1..], out)
    ensures StopsAtTimeKey(log, keys, out)
  {
    var m := |out| - |log| - 1;
    QueriesCons(keys, m);
    Regroup(log, [QueryFrame(KeyCode(keys[0]))], Queries(keys[1..][..m]), out, Queries(keys[..m + 1]));
    assert keys[m] == keys[1..][m - 1];
  }

  /**
   * The log `Refresh` leaves: every key's query when it ends normally, and
   * otherwise the queries up to the time-of-day key whose reading raised
   * ValueError.
   */
  lemma {:induction false} RefreshLog(dev: Device, keys: seq<Key>)
    ensures Refresh(dev, keys).Normal? ==> Refresh(dev, keys).dev.tx == dev.tx + Queries(keys)
    ensures Refresh(dev, keys).Raised? ==>
              Refresh(dev, keys).exc == ValueError && StopsAtTimeKey(dev.tx, keys, Refresh(dev, keys).dev.tx)
    decreases |keys|
  {
    if keys != [] {
      var q := QueryFrame(KeyCode(keys[0]));
      var step := UpdateVal(dev, keys[0]);
      if step.Raised? {
        QueriesCons(keys, 0);
        assert keys[1..][..0] == [];
        StopAt(dev.tx, keys, 0, step.dev.tx);
      } else {
        RefreshLog(step.dev, keys[1..]);
        var r := Refresh(step.dev, keys[1..]);
        assert Refresh(dev, keys) == r;
        if r.Raised? {
          StopsShift(dev.tx, keys, r.dev.tx);
        } else {
          Regroup(dev.tx, [q], Queries(keys[1..]), r.dev.tx, Queries(keys));
        }
      }
    }
  }

  /** `Refresh` only consumes input, and keeps the cursor. */
  lemma {:induction false} RefreshConsumes(dev: Device, keys: seq<Key>)
    ensures Refresh(dev, keys).dev.auxIndex == dev.auxIndex && Suffix(Refresh(dev, keys).dev.rx, dev.rx)
    decreases |keys|
  {
    if keys != [] {
      var step := UpdateVal(dev, keys[0]);
      if step.Normal? {
        RefreshConsumes(step.dev, keys[1..]);
        SuffixTransitive(Refresh(step.dev, keys[1..]).dev.rx, step.dev.rx, dev.rx);
      }
    }
  }

  /** `Refresh` changes no reading of a key outside `keys`, and keeps every entry of the right kind. */
  lemma {:induction false} RefreshKeeps(dev: Device, keys: seq<Key>)
    ensures forall k :: k !in keys ==> SameAt(dev.data, Refresh(dev, keys).dev.data, k)
    ensures Consistent(dev) ==> Consistent(Refresh(dev, keys).dev)
    decreases |keys|
  {
    if keys != [] {
      var step := UpdateVal(dev, keys[0]);
      if step.Normal? {
        RefreshKeeps(step.dev, keys[1..]);
        var r := Refresh(step.dev, keys[1..]);
        forall k | k !in keys
          ensures SameAt(dev.data, r.dev.data, k)
        {
          assert k != keys[0] && k !in keys[1..];
        }
      }
    }
  }

  /**
   * `update_vals`: `update_val` on each key in turn; the first escaping
   * exception ends the loop, and it is the ValueError of a time-of-day key's
   * query, the last frame written.
   */
  method UpdateVals(dev: Device, keys: seq<Key>) returns (r: Outcome)
    ensures r == Refresh(dev, keys)
    ensures r.Normal? ==> r.dev.tx == dev.tx + Queries(keys)
    ensures r.Raised? ==>
              && r.exc == ValueError
              && StopsAtTimeKey(dev.tx, keys, r.dev.tx)
    ensures r.dev.auxIndex == dev.auxIndex && Suffix(r.dev.rx, dev.rx)
    ensures forall k :: k !in keys ==> SameAt(dev.data, r.dev.data, k)
    ensures Consistent(dev) ==> Consistent(r.dev)
  {
    RefreshLog(dev, keys);
    RefreshConsumes(dev, keys);
    RefreshKeeps(dev, keys);
    var d := dev;
    var i := 0;
    while i < |keys|
      invariant 0 <= i <= |keys|
      invariant Refresh(d, keys[i..]) == Refresh(dev, keys)
    {
      var step := UpdateVal(d, keys[i]);
      RefreshStep(d, keys, i);
      if step.Raised? {
        return step;
      }
      d := step.dev;
      i := i + 1;
    }
    assert keys[i..] == [];
    return Normal(d);
  }

  // ---------------------------------------------------------------- readAll and the polling cursor

  /** `__next_aux`: the cursor moves on by one, wrapping after the last auxiliary key. */
  function NextAux(i: AuxIndex): (j: AuxIndex)
    ensures j == (i + 1) % 5
  {
    if i + 1 >= 5 then 0 else i + 1
  }

  /**
   * The auxiliary keys one `readAll` reads: all of them on a deep poll, and
   * otherwise the single key after the cursor, never the one read last.
   */
  function AuxKeys(deep: bool, i: AuxIndex): (keys: seq<Key>)
    ensures forall k :: k in keys ==> k in AUX_VALS
    ensures deep ==> forall k :: k in AUX_VALS ==> k in keys
    ensures !deep ==> |keys| == 1 && keys[0] != AUX_VALS[i]
  {
    if deep then AUX_VALS else [AUX_VALS[NextAux(i)]]
  }

  /**
   * The auxiliary half of `readAll`: every auxiliary key (`deep`), or the
   * cursor moves on first and the key it lands on is read.
   */
  method ReadAux(d: Device, deep: bool) returns (r: Outcome)
    ensures r == Refresh(if deep then d else d.(auxIndex := NextAux(d.auxIndex)), AuxKeys(deep, d.auxIndex))
    ensures r.Normal? ==> r.dev.tx == d.tx + Queries(AuxKeys(deep, d.auxIndex))
    ensures r.dev.auxIndex == if deep then d.auxIndex else NextAux(d.auxIndex)
    ensures Suffix(r.dev.rx, d.rx)
    ensures Consistent(d) ==> Consistent(r.dev)
  {
    if deep {
      r := UpdateVals(d, AUX_VALS);
    } else {
      var i := NextAux(d.auxIndex);
      // `update_val` of the one key, as the one-key loop of `update_vals`
      r := UpdateVals(d.(auxIndex := i), [AUX_VALS[i]]);
    }
  }

  /**
   * `readAll`: discard the `pending` octets buffered on the line, read the
   * frequent keys in order, then every auxiliary key (`deep`) or the next
   * one in turn; the cursor moves before the auxiliary read is attempted.
   */
  method ReadAll(dev: Device, deep: bool, pending: nat) returns (r: Outcome)
    ensures var frequent := Refresh(dev.(rx := Read(pending, dev.rx).rest), FREQ_VALS);
      r == if frequent.Raised? then frequent
           else Refresh(if deep then frequent.dev else frequent.dev.(auxIndex := NextAux(dev.auxIndex)),
                        AuxKeys(deep, dev.auxIndex))
    ensures r.Normal? ==> r.dev.tx == dev.tx + Queries(FREQ_VALS) + Queries(AuxKeys(deep, dev.auxIndex))
    ensures r.Normal? ==> r.dev.auxIndex == if deep then dev.auxIndex else NextAux(dev.auxIndex)
    ensures Suffix(r.dev.rx, dev.rx)
    ensures Consistent(dev) ==> Consistent(r.dev)
  {
    var flushed := dev.(rx := Read(pending, dev.rx).rest);
    if Consistent(dev) {
      assert flushed.data == dev.data;
      assert Consistent(flushed);
    }
    var frequent := UpdateVals(flushed, FREQ_VALS);
    SuffixTransitive(frequent.dev.rx, flushed.rx, dev.rx);
    if frequent.Raised? {
      return frequent;
    }
    r := ReadAux(frequent.dev, deep);
    SuffixTransitive(r.dev.rx, frequent.dev.rx, dev.rx);
  }

  /** The cursor after `n` calls of `__next_aux` from `i`. */
  function Advance(i: AuxIndex, n: nat): AuxIndex
    decreases n
  {
    if n == 0 then i else Advance(NextAux(i), n - 1)
  }

  /** Moving a cursor position on by `b` and wrapping is wrapping the moved position. */
  lemma CursorShift(a: nat, b: nat)
    ensures (a % 5 + b) % 5 == (a + b) % 5
  {
  }

  /** `n` steps of the cursor wrap modulo the five auxiliary keys. */
  lemma {:induction false} AdvanceWraps(i: AuxIndex, n: nat)
    ensures Advance(i, n) == (i + n) % 5
    decreases n
  {
    if n > 0 {
      AdvanceWraps(NextAux(i), n - 1);
      CursorShift(i + 1, n - 1);
    }
  }

  /** The auxiliary keys that `n` shallow polls read, starting from cursor `i`. */
  function Schedule(i: AuxIndex, n: nat): (keys: seq<Key>)
    ensures |keys| == n
    ensures forall j :: 0 <= j < n ==> keys[j] == AUX_VALS[Advance(i, j + 1)]
    decreases n
  {
    if n == 0 then []
    else
      var rest := Schedule(NextAux(i), n - 1);
      var keys := [AUX_VALS[NextAux(i)]] + rest;
      assert forall j :: 1 <= j < n ==> keys[j] == rest[j - 1];
      keys
  }

  /** Poll `j` of a run from cursor `i` reads auxiliary key `(i + j + 1) mod 5`. */
  lemma ScheduleAt(i: AuxIndex, n: nat, j: nat)
    requires j < n
    ensures Schedule(i, n)[j] == AUX_VALS[(i + j + 1) % 5]
  {
    AdvanceWraps(i, j + 1);
  }

  /** Every poll of a run from cursor `i` reads the auxiliary key `(i + j + 1) mod 5`. */
  lemma ScheduleWraps(i: AuxIndex, n: nat)
    ensures forall j :: 0 <= j < n ==> Schedule(i, n)[j] == AUX_VALS[(i + j + 1) % 5]
  {
    forall j | 0 <= j < n ensures Schedule(i, n)[j] == AUX_VALS[(i + j + 1) % 5] {
      ScheduleAt(i, n, j);
    }
  }

  /** From a fresh object the first shallow poll reads `temp`: the cursor moves before it is used. */
  lemma FirstShallowPollReadsTemp(rx: seq<Rx>)
    ensures Schedule(Init(rx).auxIndex, 1) == [Temp]
  {
  }

  /** Cursor moves that do not reach the end of `AUX_VALS` add up. */
  lemma {:induction false} AdvanceBelow(i: AuxIndex, n: nat)
    requires i + n < 5
    ensures Advance(i, n) == i + n
    decreases n
  {
    if n > 0 {
      AdvanceBelow(NextAux(i), n - 1);
    }
  }

  /** Cursor moves that pass the end of `AUX_VALS` once wrap back to its start. */
  lemma {:induction false} AdvanceAbove(i: AuxIndex, n: nat)
    requires 5 <= i + n < 10
    ensures Advance(i, n) == i + n - 5
    decreases n
  {
    if i == 4 {
      AdvanceBelow(0, n - 1);
    } else {
      AdvanceAbove(NextAux(i), n - 1);
    }
  }

  /** Poll `j` of five from cursor `i` reads entry `j` of `AUX_VALS` rotated to start after `i`. */
  lemma ScheduleRotationAt(i: AuxIndex, j: nat)
    requires j < 5
    ensures Schedule(i, 5)[j] == (AUX_VALS[i + 1..] + AUX_VALS[..i + 1])[j]
  {
    if j < 4 - i {
      AdvanceBelow(i, j + 1);
    } else {
      AdvanceAbove(i, j + 1);
    }
  }

  /** Five polls from cursor `i` read `AUX_VALS` rotated to start after position `i`. */
  lemma ScheduleIsRotation(i: AuxIndex)
    ensures Schedule(i, 5) == AUX_VALS[i + 1..] + AUX_VALS[..i + 1]
  {
    forall j | 0 <= j < 5 ensures Schedule(i, 5)[j] == (AUX_VALS[i + 1..] + AUX_VALS[..i + 1])[j] {
      ScheduleRotationAt(i, j);
    }
  }

  /** Any five consecutive shallow polls read each auxiliary key exactly once. */
  lemma FivePollsCoverAux(i: AuxIndex)
    ensures multiset(Schedule(i, 5)) == multiset(AUX_VALS)
    ensures forall k :: k in AUX_VALS ==> multiset(Schedule(i, 5))[k] == 1
  {
    ScheduleIsRotation(i);
    RotationPermutes(AUX_VALS, i + 1);
    PollingListsHaveNoRepeats();
    forall k | k in AUX_VALS ensures multiset(Schedule(i, 5))[k] == 1 {
      DistinctCountsOnce(AUX_VALS, k);
    }
  }

  /** The frames a run of shallow polls writes: the frequent keys, then one auxiliary key, per poll. */
  function PollFrames(aux: seq<Key>): seq<seq<byte>> {
    if aux == [] then [] else Queries(FREQ_VALS + [aux[0]]) + PollFrames(aux[1..])
  }

  /** A run of polls is one poll, from the advanced cursor, followed by the rest of the run. */
  lemma PollLogHead(log: seq<seq<byte>>, polled: seq<seq<byte>>, after: seq<seq<byte>>, i: AuxIndex, n: nat)
    requires n > 0
    requires polled == log + Queries(FREQ_VALS) + Queries(AuxKeys(false, i))
    requires after == polled + PollFrames(Schedule(NextAux(i), n - 1))
    ensures after == log + PollFrames(Schedule(i, n))
  {
    var x := AUX_VALS[NextAux(i)];
    var later := Schedule(NextAux(i), n - 1);
    ScheduleHead(i, n);
    PollFramesHead(x, later);
    ConcatRegroup(log, Queries(FREQ_VALS), Queries([x]), PollFrames(later));
  }

  lemma ScheduleHead(i: AuxIndex, n: nat)
    requires n > 0
    ensures Schedule(i, n) == [AUX_VALS[NextAux(i)]] + Schedule(NextAux(i), n - 1)
  {
  }

  lemma PollFramesHead(x: Key, later: seq<Key>)
    ensures PollFrames([x] + later) == Queries(FREQ_VALS) + Queries([x]) + PollFrames(later)
  {
    assert ([x] + later)[1..] == later;
    QueriesAppend(FREQ_VALS, [x]);
  }

  /** One `readAll(False)` as the polling schedule sees it: its frames, the cursor moved once, and consistency. */
  method ShallowPoll(dev: Device, pending: nat) returns (r: Outcome)
    ensures r.Normal? ==> r.dev.tx == dev.tx + Queries(FREQ_VALS) + Queries([AUX_VALS[NextAux(dev.auxIndex)]])
    ensures r.Normal? ==> r.dev.auxIndex == NextAux(dev.auxIndex)
    ensures Consistent(dev) ==> Consistent(r.dev)
  {
    r := ReadAll(dev, false, pending);
  }

  /**
   * `readAll(False)` once per entry of `pendings`, until an exception
   * escapes: the polls follow the cursor's schedule, and the cursor
   * advances once per poll.
   */
  method Polls(dev: Device, pendings: seq<nat>) returns (r: Outcome)
    ensures r.Normal? ==> r.dev.tx == dev.tx + PollFrames(Schedule(dev.auxIndex, |pendings|))
    ensures r.Normal? ==> r.dev.auxIndex == Advance(dev.auxIndex, |pendings|)
    ensures Consistent(dev) ==> Consistent(r.dev)
    decreases |pendings|
  {
    if pendings == [] {
      assert PollFrames(Schedule(dev.auxIndex, 0)) == [];
      assert dev.tx + [] == dev.tx;
      return Normal(dev);
    }
    var poll := ShallowPoll(dev, pendings[0]);
    if poll.Raised? {
      return poll;
    }
    r := Polls(poll.dev, pendings[1..]);
    if r.Normal? {
      PollLogHead(dev.tx, poll.dev.tx, r.dev.tx, dev.auxIndex, |pendings|);
    }
  }

  // ---------------------------------------------------------------- setVal

  /** Encodes `value` for set register `code` and writes the command frame. */
  function SetVal(dev: Device, code: byte, value: Setting): (r: Outcome)
    ensures r.Raised? <==> EncodeSetting(code, value).Err?
    ensures r.Raised? ==> r.exc == EncodeSetting(code, value).error && r.dev == dev
    ensures r.Normal? ==> r.dev.tx == dev.tx + [CommandFrame(code, EncodeSetting(code, value).value)]
    ensures r.dev.data == dev.data && r.dev.auxIndex == dev.auxIndex && Suffix(r.dev.rx, dev.rx)
    ensures code < FIRST_QUERY ==> r.dev.rx == dev.rx
  {
    match EncodeSetting(code, value)
    case Err(e) => Raised(e, dev)
    case Ok(payload) => Normal(WriteFunction(dev, code, payload).dev)
  }

  /** `turnOFF`: `DISABLED` on the output switch is the frame `B1 B2 01 00 00 B6`. */
  lemma TurnOffFrame(dev: Device)
    ensures SetVal(dev, OUTPUT_ON, Int(DISABLED)) == Normal(dev.(tx := dev.tx + [[0xB1, 0xB2, 0x01, 0x00, 0x00, 0xB6]]))
  {
    var bs := EncodeSetting(OUTPUT_ON, Int(DISABLED)).value;
    TwoOctets(bs);
    assert bs == [0, 0];
    assert CommandFrame(OUTPUT_ON, [0, 0]) == [0xB1, 0xB2, 0x01, 0x00, 0x00, 0xB6];
  }

  /**
   * `ENABLED` on the output switch, like any true value there, is the frame
   * `B1 B2 01 01 00 B6`: the switch reads the first payload octet, not the
   * register value's high byte.
   */
  lemma TurnOnFrame(dev: Device)
    ensures SetVal(dev, OUTPUT_ON, Int(ENABLED)) == Normal(dev.(tx := dev.tx + [[0xB1, 0xB2, 0x01, 0x01, 0x00, 0xB6]]))
  {
    var bs := EncodeSetting(OUTPUT_ON, Int(ENABLED)).value;
    TwoOctets(bs);
    assert bs == [1, 0];
    assert CommandFrame(OUTPUT_ON, [1, 0]) == [0xB1, 0xB2, 0x01, 0x01, 0x00, 0xB6];
  }

  /** A float given to two decimals goes out as integer part and hundredths: 12.34 is `[12, 34]`. */
  lemma TwelveThirtyFourFrame(dev: Device)
    ensures SetVal(dev, SETVCUT, Real(12.34)) == Normal(dev.(tx := dev.tx + [[0xB1, 0xB2, 0x03, 12, 34, 0xB6]]))
  {
    HundredthsEncodeExactly(SETVCUT, 1234);
    assert 1234 as real / 100.0 == 12.34;
    assert CommandFrame(SETVCUT, [12, 34]) == [0xB1, 0xB2, 0x03, 12, 34, 0xB6];
  }

  // ---------------------------------------------------------------- command

  const MAX_ATTEMPTS: nat := 3

  /** The frames `n` issue/verify rounds write. */
  function IssueVerify(issue: seq<byte>, verify: seq<byte>, n: nat): (frames: seq<seq<byte>>)
    ensures |frames| == 2 * n
    ensures forall j :: 0 <= j < 2 * n ==> frames[j] == if j % 2 == 0 then issue else verify
  {
    if n == 0 then []
    else
      var rest := IssueVerify(issue, verify, n - 1);
      var frames := [issue, verify] + rest;
      assert forall j :: 2 <= j < 2 * n ==> frames[j] == rest[j - 2];
      frames
  }

  lemma {:induction false} IssueVerifyGrows(issue: seq<byte>, verify: seq<byte>, n: nat)
    ensures IssueVerify(issue, verify, n + 1) == IssueVerify(issue, verify, n) + [issue, verify]
    decreases n
  {
    if n > 0 {
      IssueVerifyGrows(issue, verify, n - 1);
    }
  }

  /** One more issue/verify round extends the log by the command frame and the verification query. */
  lemma RoundGrows(log: seq<seq<byte>>, issue: seq<byte>, verify: seq<byte>, n: nat)
    ensures log + IssueVerify(issue, verify, n) + [issue] + [verify] == log + IssueVerify(issue, verify, n + 1)
  {
    IssueVerifyGrows(issue, verify, n);
  }

  /** Before the first round nothing has been written. */
  lemma NoRoundsYet(log: seq<seq<byte>>, issue: seq<byte>, verify: seq<byte>)
    ensures log + IssueVerify(issue, verify, 0) == log
  {
    assert IssueVerify(issue, verify, 0) == [];
  }

  /**
   * One round of `command`: `setVal`, whose value is already encoded as
   * `payload`, then `update_val` of the verification key.
   */
  function Round(d: Device, code: byte, payload: seq<byte>, vk: Key): (r: Outcome)
    requires |payload| == 2
    ensures r.Raised? ==> IsDurationKey(vk) && r.exc == ValueError
  {
    UpdateVal(WriteFunction(d, code, payload).dev, vk)
  }

  /** The round of `command` for one encoded request, as a function of the device state. */
  function RoundOf(code: byte, payload: seq<byte>, vk: Key): Device -> Outcome
    requires |payload| == 2
  {
    d => Round(d, code, payload, vk)
  }

  /**
   * What a round does in any state: it writes `issue` and then `verify`,
   * only consumes input, keeps the cursor, keeps every key's entry of the
   * right kind, and raises nothing but ValueError, and that only if `mayRaise`.
   */
  ghost predicate Behaves(round: Device -> Outcome, issue: seq<byte>, verify: seq<byte>, mayRaise: bool) {
    forall d: Device ::
      && round(d).dev.tx == d.tx + [issue] + [verify]
      && round(d).dev.auxIndex == d.auxIndex && Suffix(round(d).dev.rx, d.rx)
      && (Consistent(d) ==> Consistent(round(d).dev))
      && (round(d).Raised? ==> mayRaise && round(d).exc == ValueError)
  }

  /** One round in state `d`; the facts `Behaves` collects. */
  lemma RoundEffects(d: Device, code: byte, payload: seq<byte>, vk: Key)
    requires |payload| == 2
    ensures Round(d, code, payload, vk).dev.tx == d.tx + [CommandFrame(code, payload)] + [QueryFrame(KeyCode(vk))]
    ensures Round(d, code, payload, vk).dev.auxIndex == d.auxIndex
    ensures Suffix(Round(d, code, payload, vk).dev.rx, d.rx)
    ensures forall k :: k != vk ==> SameAt(d.data, Round(d, code, payload, vk).dev.data, k)
    ensures Consistent(d) ==> Consistent(Round(d, code, payload, vk).dev)
  {
    var issued := WriteFunction(d, code, payload).dev;
    SuffixTransitive(UpdateVal(issued, vk).dev.rx, issued.rx, d.rx);
    if Consistent(d) {
      assert issued.data == d.data;
      assert Consistent(issued);
    }
  }

  /**
   * Every round of `command` writes the command frame and then the
   * verification query, and only a time-of-day verification key can raise.
   */
  lemma RoundsBehave(code: byte, payload: seq<byte>, vk: Key)
    requires |payload| == 2
    ensures Behaves(RoundOf(code, payload, vk), CommandFrame(code, payload), QueryFrame(KeyCode(vk)), IsDurationKey(vk))
  {
    var round := RoundOf(code, payload, vk);
    forall d: Device
      ensures round(d).dev.tx == d.tx + [CommandFrame(code, payload)] + [QueryFrame(KeyCode(vk))]
      ensures round(d).dev.auxIndex == d.auxIndex && Suffix(round(d).dev.rx, d.rx)
      ensures Consistent(d) ==> Consistent(round(d).dev)
      ensures round(d).Raised? ==> IsDurationKey(vk) && round(d).exc == ValueError
    {
      assert round(d) == Round(d, code, payload, vk);
      RoundEffects(d, code, payload, vk);
    }
  }

  /** The device state after the last of `rounds`, or `d` before any. */
  function Latest<T>(d: T, rounds: seq<T>): T {
    if rounds == [] then d else rounds[|rounds| - 1]
  }

  /** How appending `next` to non-empty `rounds` looks from their first element. */
  lemma LatestAppend<T>(d: T, rounds: seq<T>, next: T)
    requires rounds != []
    ensures (rounds + [next])[0] == rounds[0] && (rounds + [next])[1..] == rounds[1..] + [next]
    ensures Latest(rounds[0], rounds[1..]) == Latest(d, rounds)
  {
  }

  /**
   * `rounds` are the states successive normal rounds leave, starting from
   * `d`: the first round from `d` leaves `rounds[0]`, and the others
   * continue from there.
   */
  predicate Chain(d: Device, round: Device -> Outcome, rounds: seq<Device>)
    decreases |rounds|, 1
  {
    rounds == [] || Leaves(d, round, rounds[0], rounds[1..])
  }

  /** A round from `d` ends normally in `first`, and `later` continue the chain from it. */
  predicate Leaves(d: Device, round: Device -> Outcome, first: Device, later: seq<Device>)
    decreases |later| + 1, 0
  {
    round(d) == Normal(first) && Chain(first, round, later)
  }

  /** A normal round from the latest state extends the chain. */
  lemma {:induction false} ChainGrows(d: Device, round: Device -> Outcome, rounds: seq<Device>, next: Device)
    requires Chain(d, round, rounds) && round(Latest(d, rounds)) == Normal(next)
    ensures Chain(d, round, rounds + [next]) && Latest(d, rounds + [next]) == next
    decreases |rounds|
  {
    if rounds == [] {
      assert [next][1..] == [];
      assert Chain(next, round, []);
      assert Leaves(d, round, next, []);
    } else {
      LatestAppend(d, rounds, next);
      assert Leaves(d, round, rounds[0], rounds[1..]);
      ChainGrows(rounds[0], round, rounds[1..], next);
      assert Leaves(d, round, rounds[0], rounds[1..] + [next]);
    }
  }

  /** `observed` holds the verification key's entry in each of `rounds`. */
  predicate Readings(observed: seq<Value>, rounds: seq<Device>, vk: Key) {
    |rounds| == |observed| && forall j :: 0 <= j < |rounds| ==> vk in rounds[j].data && observed[j] == rounds[j].data[vk]
  }

  /** No reading before the last one matches `value`: the loop went on after each of them. */
  predicate Retried(observed: seq<Value>, value: Setting) {
    forall j :: 0 <= j < |observed| - 1 ==> !Matches(observed[j], value)
  }

  /** After `observed`, the loop of `command` runs another round: fewer than three so far, and no match yet. */
  predicate Pending(observed: seq<Value>, value: Setting) {
    |observed| < MAX_ATTEMPTS && (0 < |observed| ==> !Matches(observed[|observed| - 1], value))
  }

  /** Appending a state and its entry for `vk` keeps `observed` the readings of `rounds`. */
  lemma ReadingsGrow(observed: seq<Value>, rounds: seq<Device>, vk: Key, next: Device)
    requires Readings(observed, rounds, vk) && vk in next.data
    ensures Readings(observed + [next.data[vk]], rounds + [next], vk)
  {
    var observed', rounds' := observed + [next.data[vk]], rounds + [next];
    forall j | 0 <= j < |rounds'|
      ensures vk in rounds'[j].data && observed'[j] == rounds'[j].data[vk]
    {
      if j < |rounds| {
        assert rounds'[j] == rounds[j] && observed'[j] == observed[j];
      }
    }
  }

  /** After a last reading that did not match either, the loop goes on. */
  lemma RetriedGrows(observed: seq<Value>, value: Setting, v: Value)
    requires Retried(observed, value)
    requires 0 < |observed| ==> !Matches(observed[|observed| - 1], value)
    ensures Retried(observed + [v], value)
  {
    var observed' := observed + [v];
    forall j | 0 <= j < |observed'| - 1
      ensures !Matches(observed'[j], value)
    {
      assert observed'[j] == observed[j];
    }
  }

  /**
   * A round that ends normally in `next`, after `rounds` that all missed,
   * extends the chain, the readings and the log of `command`.
   */
  lemma Extend(dev: Device, round: Device -> Outcome, issue: seq<byte>, verify: seq<byte>, vk: Key, value: Setting,
               observed: seq<Value>, rounds: seq<Device>, next: Device)
    requires Chain(dev, round, rounds) && round(Latest(dev, rounds)) == Normal(next) && vk in next.data
    requires Readings(observed, rounds, vk) && Retried(observed, value)
    requires 0 < |observed| ==> !Matches(observed[|observed| - 1], value)
    requires Latest(dev, rounds).tx == dev.tx + IssueVerify(issue, verify, |rounds|)
    requires next.tx == Latest(dev, rounds).tx + [issue] + [verify]
    ensures Chain(dev, round, rounds + [next]) && Latest(dev, rounds + [next]) == next
    ensures Readings(observed + [next.data[vk]], rounds + [next], vk) && Retried(observed + [next.data[vk]], value)
    ensures next.tx == dev.tx + IssueVerify(issue, verify, |rounds| + 1)
  {
    ChainGrows(dev, round, rounds, next);
    ReadingsGrow(observed, rounds, vk, next);
    RetriedGrows(observed, value, next.data[vk]);
    RoundGrows(dev.tx, issue, verify, |rounds|);
  }

  /**
   * One more round of `command` from the state the last one left: it keeps
   * the log, the rotation and the readings' shape, and when it ends
   * normally it extends the chain, the readings and the log.
   */
  lemma NextRound(dev: Device, round: Device -> Outcome, issue: seq<byte>, verify: seq<byte>, mayRaise: bool,
                  vk: Key, value: Setting, observed: seq<Value>, rounds: seq<Device>)
    requires Behaves(round, issue, verify, mayRaise)
    requires Chain(dev, round, rounds) && Readings(observed, rounds, vk) && Retried(observed, value)
    requires 0 < |observed| ==> !Matches(observed[|observed| - 1], value)
    requires Consistent(Latest(dev, rounds))
    requires Latest(dev, rounds).tx == dev.tx + IssueVerify(issue, verify, |rounds|)
    requires Latest(dev, rounds).auxIndex == dev.auxIndex && Suffix(Latest(dev, rounds).rx, dev.rx)
    ensures var next := round(Latest(dev, rounds)).dev;
      next.auxIndex == dev.auxIndex && Suffix(next.rx, dev.rx) && Consistent(next)
    ensures var next := round(Latest(dev, rounds)).dev;
      round(Latest(dev, rounds)).Normal? ==>
        && vk in next.data
        && Chain(dev, round, rounds + [next]) && Latest(dev, rounds + [next]) == next
        && Readings(observed + [next.data[vk]], rounds + [next], vk) && Retried(observed + [next.data[vk]], value)
        && next.tx == dev.tx + IssueVerify(issue, verify, |rounds| + 1)
  {
    var d := Latest(dev, rounds);
    var next := round(d).dev;
    SuffixTransitive(next.rx, d.rx, dev.rx);
    if round(d).Normal? {
      Extend(dev, round, issue, verify, vk, value, observed, rounds, next);
    }
  }

  /**
   * What `command` did: whether it is supported, `data[verify_key]` after
   * each round, the device state each round left, and the result.
   */
  datatype Reaction = Reaction(supported: bool, observed: seq<Value>, rounds: seq<Device>, out: Outcome)

  /**
   * The retry loop of `command`: up to three rounds, stopping after the
   * first one whose stored reading of `vk` equals `value`. `rounds` are the
   * states the completed rounds left and `observed` the stored reading of
   * `vk` in each; a round that raises ends the loop with its exception, and
   * when no round can raise, neither can the loop.
   */
  method Confirm(dev: Device, round: Device -> Outcome, issue: seq<byte>, verify: seq<byte>, mayRaise: bool,
                 vk: Key, value: Setting)
    returns (observed: seq<Value>, rounds: seq<Device>, out: Outcome)
    requires Consistent(dev) && Behaves(round, issue, verify, mayRaise)
    ensures |observed| <= MAX_ATTEMPTS
    ensures out.Normal? ==> 0 < |observed|
    ensures Retried(observed, value)
    ensures out.Normal? && 0 < |observed| < MAX_ATTEMPTS ==> Matches(observed[|observed| - 1], value)
    ensures Chain(dev, round, rounds) && Readings(observed, rounds, vk)
    ensures out.Normal? ==> out.dev == Latest(dev, rounds)
    ensures out.Raised? ==> out == round(Latest(dev, rounds))
    ensures out.Raised? ==> Pending(observed, value)
    ensures out.Raised? ==> mayRaise && out.exc == ValueError
    ensures out.Normal? && 0 < |observed| ==> vk in out.dev.data && out.dev.data[vk] == observed[|observed| - 1]
    ensures out.Normal? ==> out.dev.tx == dev.tx + IssueVerify(issue, verify, |observed|)
    ensures out.dev.auxIndex == dev.auxIndex && Suffix(out.dev.rx, dev.rx)
    ensures Consistent(out.dev)
  {
    NoRoundsYet(dev.tx, issue, verify);
    observed, rounds := [], [];
    var matched := false;
    while |observed| < MAX_ATTEMPTS && !matched
      invariant |observed| <= MAX_ATTEMPTS
      invariant Chain(dev, round, rounds) && Readings(observed, rounds, vk)
      invariant Consistent(Latest(dev, rounds)) && Retried(observed, value)
      invariant matched <==> 0 < |observed| && Matches(observed[|observed| - 1], value)
      invariant Latest(dev, rounds).tx == dev.tx + IssueVerify(issue, verify, |rounds|)
      invariant Latest(dev, rounds).auxIndex == dev.auxIndex && Suffix(Latest(dev, rounds).rx, dev.rx)
    {
      var checked := round(Latest(dev, rounds));
      NextRound(dev, round, issue, verify, mayRaise, vk, value, observed, rounds);
      if checked.Raised? {
        return observed, rounds, checked;
      }
      observed, rounds := observed + [checked.dev.data[vk]], rounds + [checked.dev];
      matched := Matches(checked.dev.data[vk], value);
    }
    return observed, rounds, Normal(Latest(dev, rounds));
  }

  /**
   * The retry loop for one encoded request: `Confirm` over the rounds of
   * `RoundOf(code, payload, vk)`, which only a time-of-day key can make raise.
   */
  method Request(dev: Device, code: byte, payload: seq<byte>, vk: Key, value: Setting)
    returns (observed: seq<Value>, rounds: seq<Device>, out: Outcome)
    requires Consistent(dev) && |payload| == 2
    ensures |observed| <= MAX_ATTEMPTS
    ensures out.Normal? ==> 0 < |observed|
    ensures Retried(observed, value)
    ensures out.Normal? && 0 < |observed| < MAX_ATTEMPTS ==> Matches(observed[|observed| - 1], value)
    ensures Chain(dev, RoundOf(code, payload, vk), rounds) && Readings(observed, rounds, vk)
    ensures out.Normal? ==> out.dev == Latest(dev, rounds)
    ensures out.Raised? ==> out == RoundOf(code, payload, vk)(Latest(dev, rounds))
    ensures out.Raised? ==> Pending(observed, value)
    ensures out.Raised? ==> IsDurationKey(vk) && out.exc == ValueError
    ensures out.Normal? && 0 < |observed| ==> vk in out.dev.data && out.dev.data[vk] == observed[|observed| - 1]
    ensures out.Normal? ==>
              out.dev.tx == dev.tx + IssueVerify(CommandFrame(code, payload), QueryFrame(KeyCode(vk)), |observed|)
    ensures out.dev.auxIndex == dev.auxIndex && Suffix(out.dev.rx, dev.rx)
    ensures Consistent(out.dev)
  {
    RoundsBehave(code, payload, vk);
    observed, rounds, out :=
      Confirm(dev, RoundOf(code, payload, vk), CommandFrame(code, payload), QueryFrame(KeyCode(vk)), IsDurationKey(vk),
              vk, value);
  }

  /** The only time-of-day key among the auxiliary keys is the last: a re-read that stops there has queried them all. */
  lemma StopsAtTimer(log: seq<seq<byte>>, out: seq<seq<byte>>)
    requires StopsAtTimeKey(log, AUX_VALS, out)
    ensures out == log + Queries(AUX_VALS)
  {
    assert |out| - |log| == 5 && AUX_VALS[..5] == AUX_VALS;
  }

  /**
   * The tail of `command`: after a reset that did not raise, every auxiliary
   * key is re-read; the entry of the key that confirmed the command, which is
   * not one of them, stays as it was. Any other outcome passes through. The
   * re-read can only raise at the timer, the last auxiliary key, so it has
   * written every query by then.
   */
  method Settle(c: Command, confirmed: Outcome) returns (out: Outcome)
    requires SetCode(c).Some?
    ensures out.Normal? ==> confirmed.Normal?
    ensures c != CommandReset || confirmed.Raised? ==> out == confirmed
    ensures c == CommandReset && out.Normal? ==> out.dev.tx == confirmed.dev.tx + Queries(AUX_VALS)
    ensures c == CommandReset && confirmed.Normal? ==>
              && out.dev.tx == confirmed.dev.tx + Queries(AUX_VALS)
              && (out.Raised? ==> out.exc == ValueError)
    ensures c == CommandReset && confirmed.Normal? ==> out == Refresh(confirmed.dev, AUX_VALS)
    ensures out.dev.auxIndex == confirmed.dev.auxIndex && Suffix(out.dev.rx, confirmed.dev.rx)
    ensures SameAt(confirmed.dev.data, out.dev.data, VerifyKey(c))
    ensures forall k :: k !in AUX_VALS ==> SameAt(confirmed.dev.data, out.dev.data, k)
    ensures Consistent(confirmed.dev) ==> Consistent(out.dev)
  {
    out := confirmed;
    if c == CommandReset && confirmed.Normal? {
      out := UpdateVals(confirmed.dev, AUX_VALS);
      if out.Raised? {
        StopsAtTimer(confirmed.dev.tx, out.dev.tx);
      }
    }
  }

  /**
   * `command` once the value is encoded as `payload`: the retry loop of
   * `Request`, then `Settle`. Only the timer's rounds can raise; a reset
   * always completes its rounds and then writes every auxiliary query.
   */
  method Perform(dev: Device, c: Command, payload: seq<byte>, value: Setting)
    returns (observed: seq<Value>, rounds: seq<Device>, out: Outcome)
    requires Consistent(dev) && SetCode(c).Some? && |payload| == 2
    ensures |observed| <= MAX_ATTEMPTS
    ensures out.Normal? ==> 0 < |observed|
    ensures Retried(observed, value)
    ensures out.Normal? && 0 < |observed| < MAX_ATTEMPTS ==> Matches(observed[|observed| - 1], value)
    ensures Chain(dev, RoundOf(SetCode(c).value, payload, VerifyKey(c)), rounds) && Readings(observed, rounds, VerifyKey(c))
    ensures out.Normal? && 0 < |observed| ==>
              VerifyKey(c) in out.dev.data && out.dev.data[VerifyKey(c)] == observed[|observed| - 1]
    ensures out.Normal? && c != CommandReset ==>
              && out.dev == Latest(dev, rounds)
              && out.dev.tx == dev.tx + IssueVerify(CommandFrame(SetCode(c).value, payload), QueryFrame(KeyCode(VerifyKey(c))), |observed|)
    ensures c != CommandReset && out.Raised? ==>
              && c == CommandSetTimer && out.exc == ValueError
              && out == RoundOf(SetCode(c).value, payload, VerifyKey(c))(Latest(dev, rounds))
              && Pending(observed, value)
    ensures c == CommandReset ==>
              && 0 < |observed| && !Pending(observed, value)
              && out.dev.tx == dev.tx
                   + IssueVerify(CommandFrame(SetCode(c).value, payload), QueryFrame(KeyCode(VerifyKey(c))), |observed|)
                   + Queries(AUX_VALS)
              && (out.Raised? ==> out.exc == ValueError)
    ensures c == CommandReset ==> out == Refresh(Latest(dev, rounds), AUX_VALS)
    ensures out.dev.auxIndex == dev.auxIndex && Suffix(out.dev.rx, dev.rx)
    ensures Consistent(out.dev)
  {
    var confirmed;
    observed, rounds, confirmed := Request(dev, SetCode(c).value, payload, VerifyKey(c), value);
    out := Settle(c, confirmed);
    SuffixTransitive(out.dev.rx, confirmed.dev.rx, dev.rx);
  }

  /**
   * `command`: an unsupported command is refused without any traffic;
   * otherwise the retry loop of `Request`, and then `Settle`, which re-reads
   * the auxiliary keys after a reset whether or not the reset was confirmed.
   */
  method Command(dev: Device, c: Command, value: Setting) returns (r: Reaction)
    requires Consistent(dev)
    ensures r.supported <==> SetCode(c).Some?
    ensures !r.supported ==> r.observed == [] && r.rounds == [] && r.out == Normal(dev)
    ensures |r.observed| <= MAX_ATTEMPTS
    ensures r.supported && r.out.Normal? ==> 0 < |r.observed|
    ensures Retried(r.observed, value)
    ensures r.out.Normal? && 0 < |r.observed| < MAX_ATTEMPTS ==> Matches(r.observed[|r.observed| - 1], value)
    ensures r.supported && EncodeSetting(SetCode(c).value, value).Err? ==>
              r.observed == [] && r.rounds == [] && r.out == Raised(EncodeSetting(SetCode(c).value, value).error, dev)
    ensures r.supported && EncodeSetting(SetCode(c).value, value).Ok? ==>
              && Chain(dev, RoundOf(SetCode(c).value, EncodeSetting(SetCode(c).value, value).value, VerifyKey(c)), r.rounds)
              && Readings(r.observed, r.rounds, VerifyKey(c))
    ensures r.supported && r.out.Normal? && 0 < |r.observed| ==>
              VerifyKey(c) in r.out.dev.data && r.out.dev.data[VerifyKey(c)] == r.observed[|r.observed| - 1]
    ensures r.supported && r.out.Normal? && c != CommandReset ==>
              && EncodeSetting(SetCode(c).value, value).Ok?
              && r.out.dev == Latest(dev, r.rounds)
              && r.out.dev.tx == dev.tx
                   + IssueVerify(CommandFrame(SetCode(c).value, EncodeSetting(SetCode(c).value, value).value),
                                 QueryFrame(KeyCode(VerifyKey(c))), |r.observed|)
    ensures r.supported && r.out.Normal? && c == CommandReset ==>
              && EncodeSetting(SetCode(c).value, value).Ok?
              && r.out.dev.tx == dev.tx
                   + IssueVerify(CommandFrame(SetCode(c).value, EncodeSetting(SetCode(c).value, value).value),
                                 QueryFrame(KeyCode(VerifyKey(c))), |r.observed|)
                   + Queries(AUX_VALS)
    ensures r.supported && r.out.Raised? && c != CommandSetTimer && c != CommandReset ==>
              EncodeSetting(SetCode(c).value, value).Err?
    ensures r.supported && EncodeSetting(SetCode(c).value, value).Ok? && c != CommandReset && r.out.Raised? ==>
              && c == CommandSetTimer && r.out.exc == ValueError
              && r.out == RoundOf(SetCode(c).value, EncodeSetting(SetCode(c).value, value).value, VerifyKey(c))
                            (Latest(dev, r.rounds))
              && Pending(r.observed, value)
    ensures r.supported && EncodeSetting(SetCode(c).value, value).Ok? && c == CommandReset ==>
              && 0 < |r.observed| && !Pending(r.observed, value)
              && r.out.dev.tx == dev.tx
                   + IssueVerify(CommandFrame(SetCode(c).value, EncodeSetting(SetCode(c).value, value).value),
                                 QueryFrame(KeyCode(VerifyKey(c))), |r.observed|)
                   + Queries(AUX_VALS)
              && (r.out.Raised? ==> r.out.exc == ValueError)
    ensures r.supported && EncodeSetting(SetCode(c).value, value).Ok? && c == CommandReset ==>
              r.out == Refresh(Latest(dev, r.rounds), AUX_VALS)
    ensures r.out.dev.auxIndex == dev.auxIndex && Suffix(r.out.dev.rx, dev.rx)
    ensures Consistent(r.out.dev)
  {
    if SetCode(c).None? {
      r := Reaction(false, [], [], Normal(dev));
    } else {
      // the encoding does not change between rounds: `setVal` raises in the first round or never
      var encoded := EncodeSetting(SetCode(c).value, value);
      if encoded.Err? {
        r := Reaction(true, [], [], Raised(encoded.error, dev));
      } else {
        var observed, rounds, out := Perform(dev, c, encoded.value, value);
        r := Reaction(true, observed, rounds, out);
        assert r.observed == observed && r.rounds == rounds && r.out == out;
      }
    }
  }
}

=== FILE: frames.dfy ===
/**
 * Wire formats. A command frame is six octets `B1 B2 cmd p0 p1 B6`; a
 * response frame is eight octets `CA CB cmd q0 q1 q2 CE CF`. `Validate` is
 * the check `getVal` applies to whatever `writeFunction` returned.
 */
module Frames {
  import opened Base
  import opened Registers

  const HEAD0: byte := 0xB1
  const HEAD1: byte := 0xB2
  const TAIL: byte := 0xB6

  const SYNC0: byte := 0xCA
  const SYNC1: byte := 0xCB
  const END0: byte := 0xCE
  const END1: byte := 0xCF

  /** The single octet a device may send to acknowledge a set command. */
  const ACK: byte := 0x6F

  const COMMAND_LEN: nat := 6
  const RESPONSE_LEN: nat := 8

  /** The outbound frame for a command code and its two payload octets. */
  function CommandFrame(cmd: byte, payload: seq<byte>): (f: seq<byte>)
    requires |payload| == 2
    ensures |f| == COMMAND_LEN
  {
    [HEAD0, HEAD1, cmd] + payload + [TAIL]
  }

  /** The frame a query sends: its payload is always `[0, 0]`. */
  function QueryFrame(cmd: byte): seq<byte> {
    CommandFrame(cmd, [0, 0])
  }

  /** Reads a command frame back into its code and payload. */
  function ParseCommand(f: seq<byte>): (r: Option<(byte, seq<byte>)>)
    ensures r.Some? ==> |r.value.1| == 2 && CommandFrame(r.value.0, r.value.1) == f
  {
    if |f| == COMMAND_LEN && f[0] == HEAD0 && f[1] == HEAD1 && f[5] == TAIL
    then Some((f[2], f[3..5]))
    else None
  }

  /** Every command frame parses back to what built it. */
  lemma CommandFrameRoundTrip(cmd: byte, payload: seq<byte>)
    requires |payload| == 2
    ensures ParseCommand(CommandFrame(cmd, payload)) == Some((cmd, payload))
  {
    var f := CommandFrame(cmd, payload);
    assert f[3..5] == payload;
  }

  /** The inbound frame carrying a three-octet payload for `cmd`. */
  function ResponseFrame(cmd: byte, payload: seq<byte>): (f: seq<byte>)
    requires |payload| == 3
    ensures |f| == RESPONSE_LEN
  {
    [SYNC0, SYNC1, cmd] + payload + [END0, END1]
  }

  /** What `writeFunction` hands back: `None`, `False`, or the octets read. */
  datatype Reply = NoData | Failed | Data(octets: seq<byte>)

  datatype ReadError = NoResponse | AckOnly | FrameMismatch

  /**
   * `getVal`'s acceptance test. Nothing usable, or an empty read, is
   * `NoResponse`; the lone `0x6F` is `AckOnly`; anything shorter than eight
   * octets or not framed as the reply to `cmd` is `FrameMismatch`; octets
   * beyond the eighth are ignored.
   */
  function Validate(reply: Reply, cmd: byte): (r: Result<seq<byte>, ReadError>)
    ensures r == Err(NoResponse) <==> !reply.Data? || reply.octets == []
    ensures r == Err(AckOnly) <==> reply == Data([ACK])
    ensures r.Ok? <==>
              && reply.Data?
              && |reply.octets| >= RESPONSE_LEN
              && reply.octets[..RESPONSE_LEN] == ResponseFrame(cmd, reply.octets[3..6])
    ensures r.Ok? ==> |r.value| == 3 && r.value == reply.octets[3..6]
  {
    if !reply.Data? || |reply.octets| == 0 then Err(NoResponse)
    else
      var ret := reply.octets;
      if |ret| == 1 && ret[0] == ACK then Err(AckOnly)
      else if |ret| < 8 || ret[0] != SYNC0 || ret[1] != SYNC1
              || ret[6] != END0 || ret[7] != END1 || ret[2] != cmd then
        assert |ret| >= 8 ==> ret[..RESPONSE_LEN] != ResponseFrame(cmd, ret[3..6]) by {
          if |ret| >= 8 {
            var g := ResponseFrame(cmd, ret[3..6]);
            assert g[0] == SYNC0 && g[1] == SYNC1 && g[2] == cmd && g[6] == END0 && g[7] == END1;
          }
        }
        Err(FrameMismatch)
      else
        assert ret[..RESPONSE_LEN] == ResponseFrame(cmd, ret[3..6]);
        Ok(ret[3..6])
  }

  /** A response frame for `cmd`, whatever follows it, validates to its payload. */
  lemma ResponseFrameValidates(cmd: byte, payload: seq<byte>, trailing: seq<byte>)
    requires |payload| == 3
    ensures Validate(Data(ResponseFrame(cmd, payload) + trailing), cmd) == Ok(payload)
  {
    var f := ResponseFrame(cmd, payload) + trailing;
    assert f[..RESPONSE_LEN] == ResponseFrame(cmd, payload);
    assert f[3..6] == payload;
  }

  /** The same frame is refused when it answers a different register. */
  lemma WrongEchoIsMismatch(cmd: byte, other: byte, payload: seq<byte>)
    requires |payload| == 3 && other != cmd
    ensures Validate(Data(ResponseFrame(cmd, payload)), other) == Err(FrameMismatch)
  {
    assert ResponseFrame(cmd, payload)[2] == cmd;
  }

  /** A lone acknowledgment octet is reported as such, for any queried register. */
  lemma AckIsAckOnly(cmd: byte)
    ensures Validate(Data([ACK]), cmd) == Err(AckOnly)
  {
  }
}

=== FILE: registers.dfy ===
/**
 * The DL24M register and command tables: query codes, set codes, the scale
 * divisors, the data keys with their query codes, the frequent and auxiliary
 * key lists, and the mapping from instrument-level commands to set codes and
 * verification keys.
 */
module Registers {
  import opened Base

  // Query registers: each answers with an 8-octet frame.
  const ISON: byte := 0x10
  const VOLTAGE: byte := 0x11
  const CURRENT: byte := 0x12
  const TIME: byte := 0x13
  const CAP_AH: byte := 0x14
  const CAP_WH: byte := 0x15
  const TEMP: byte := 0x16
  const LIM_CURR: byte := 0x17
  const LIM_VOLT: byte := 0x18
  const TIMER: byte := 0x19

  // Set registers: no answer is read back.
  const OUTPUT_ON: byte := 0x01
  const SETCURR: byte := 0x02
  const SETVCUT: byte := 0x03
  const SETTMR: byte := 0x04
  const RESETCNT: byte := 0x05

  const ENABLED: int := 0x0100
  const DISABLED: int := 0x0000

  /** Codes at or above this one are queries that expect a reply. */
  const FIRST_QUERY: byte := 0x10

  /** Divisor applied to a scalar register's raw 24-bit count. */
  const MUL: map<byte, real> := map[
    ISON := 1.0,
    VOLTAGE := 1000.0,
    CURRENT := 1000.0,
    CAP_AH := 1000.0,
    CAP_WH := 1000.0,
    TEMP := 1.0,
    LIM_CURR := 100.0,
    LIM_VOLT := 100.0
  ]

  /** Scale used when a register is absent from `MUL`. */
  const DEFAULT_SCALE: real := 1000.0

  function Scale(code: byte): (s: real)
    ensures s > 0.0
    ensures code !in MUL ==> s == DEFAULT_SCALE
  {
    if code in MUL then MUL[code] else DEFAULT_SCALE
  }

  /** Registers whose three payload octets are hours, minutes and seconds. */
  predicate IsDuration(code: byte) {
    code == TIME || code == TIMER
  }

  /** The names under which readings are kept in the device state. */
  datatype Key = IsOn | Voltage | Current | Time | CapAh | CapWh | Temp | SetCurrent | SetVoltage | SetTimer

  /** `KEY_CMDS`: the query register behind each key. */
  function KeyCode(k: Key): (code: byte)
    ensures code >= FIRST_QUERY
  {
    match k
    case IsOn => ISON
    case Voltage => VOLTAGE
    case Current => CURRENT
    case Time => TIME
    case CapAh => CAP_AH
    case CapWh => CAP_WH
    case Temp => TEMP
    case SetCurrent => LIM_CURR
    case SetVoltage => LIM_VOLT
    case SetTimer => TIMER
  }

  /** The keys whose register holds a time of day. */
  predicate IsDurationKey(k: Key) {
    k == Time || k == SetTimer
  }

  lemma DurationKeyCodes(k: Key)
    ensures IsDurationKey(k) <==> IsDuration(KeyCode(k))
  {
  }

  /** Every key is read through a query code, and no two keys share one. */
  lemma KeyCodesAreQueries(k: Key, k': Key)
    ensures KeyCode(k) >= FIRST_QUERY
    ensures KeyCode(k) == KeyCode(k') ==> k == k'
  {
  }

  const FREQ_VALS: seq<Key> := [IsOn, Voltage, Current, Time, CapAh]

  const AUX_VALS: seq<Key> := [CapWh, Temp, SetCurrent, SetVoltage, SetTimer]

  /** The two polling lists split the keys: each key is in exactly one of them. */
  lemma PollingListsPartitionKeys(k: Key)
    ensures k in FREQ_VALS <==> k !in AUX_VALS
  {
  }

  /** No key occurs twice in a polling list. */
  lemma PollingListsHaveNoRepeats()
    ensures Distinct(FREQ_VALS) && Distinct(AUX_VALS)
  {
  }

  /** Position in `AUX_VALS` of the auxiliary key read last. */
  type AuxIndex = i: int | 0 <= i < 5

  /** The instrument-level commands; any other tag of the base class is `OtherCommand`. */
  datatype Command =
    | CommandEnable
    | CommandSetVoltage
    | CommandSetCurrent
    | CommandSetTimer
    | CommandReset
    | OtherCommand(tag: string)

  /** `COMMANDS`: the set register a command writes, if the driver supports it. */
  function SetCode(c: Command): (r: Option<byte>)
    ensures r.Some? ==> r.value < FIRST_QUERY
  {
    match c
    case CommandEnable => Some(OUTPUT_ON)
    case CommandSetVoltage => Some(SETVCUT)
    case CommandSetCurrent => Some(SETCURR)
    case CommandSetTimer => Some(SETTMR)
    case CommandReset => Some(RESETCNT)
    case OtherCommand(_) => None
  }

  /**
   * `VERIFY_CMD`: the key re-read to confirm a command took effect. Only the
   * timer is confirmed against a time of day, and the key confirming a reset
   * is not one of the auxiliary keys the reset then re-reads.
   */
  function VerifyKey(c: Command): (k: Key)
    requires SetCode(c).Some?
    ensures IsDurationKey(k) <==> c == CommandSetTimer
    ensures c == CommandReset ==> k !in AUX_VALS
  {
    match c
    case CommandEnable => IsOn
    case CommandSetVoltage => SetVoltage
    case CommandSetCurrent => SetCurrent
    case CommandSetTimer => SetTimer
    case CommandReset => CapAh
  }
}

=== FILE: resync.dfy ===
/**
 * Reception of one 8-octet response (`writeFunction` after the frame is
 * written), including the recovery of the `CA CB` header when the first
 * eight octets read do not start with it.
 *
 * `Scan` is the header search as the source evidently intends it: a pending
 * `CA` followed by `CA` stays pending. `ScanAsWritten` is the loop as the
 * source writes it, which loses that case (see `CaCaCbIsMissed`).
 */
module Resync {
  import opened Base
  import opened Frames
  import opened Channel

  /** A header `CA CB` starts at index `k` of `t`. */
  predicate HeaderAt(t: seq<byte>, k: int) {
    0 <= k && k + 1 < |t| && t[k] == SYNC0 && t[k + 1] == SYNC1
  }

  /** Reference definition: the index of the leftmost header in `t`. */
  function FirstHeader(t: seq<byte>): (r: Option<nat>)
    ensures r.Some? ==> HeaderAt(t, r.value) && forall j :: 0 <= j < r.value ==> !HeaderAt(t, j)
    ensures r.None? ==> forall j :: !HeaderAt(t, j)
  {
    if |t| < 2 then None
    else if t[0] == SYNC0 && t[1] == SYNC1 then Some(0)
    else
      var tail := t[1..];
      assert forall j :: HeaderAt(t, j + 1) <==> HeaderAt(tail, j);
      match FirstHeader(tail)
      case None =>
        assert forall j :: !HeaderAt(t, j) by {
          forall j ensures !HeaderAt(t, j) {
            if j > 0 { assert !HeaderAt(tail, j - 1); }
          }
        }
        None
      case Some(k) =>
        assert forall j :: 0 <= j < k + 1 ==> !HeaderAt(t, j) by {
          forall j | 0 <= j < k + 1 ensures !HeaderAt(t, j) {
            if j > 0 { assert !HeaderAt(tail, j - 1); }
          }
        }
        Some(k + 1)
  }

  /** The octets heard before the first lull. */
  function Heard(s: seq<Rx>): (t: seq<byte>)
    ensures |t| <= |s|
  {
    if |s| == 0 then []
    else
      match s[0]
      case Lull => []
      case Byte(b) => [b] + Heard(s[1..])
  }

  /** The heard octets are the input up to, and not including, its first lull. */
  lemma {:induction false} HeardIsLullFreePrefix(s: seq<Rx>)
    ensures forall i :: 0 <= i < |Heard(s)| ==> s[i] == Byte(Heard(s)[i])
    ensures |Heard(s)| < |s| ==> s[|Heard(s)|] == Lull
  {
    if |s| > 0 && s[0].Byte? {
      HeardIsLullFreePrefix(s[1..]);
      assert Heard(s) == [s[0].b] + Heard(s[1..]);
      forall i | 1 <= i < |Heard(s)| ensures s[i] == Byte(Heard(s)[i]) {
        assert s[i] == s[1..][i - 1];
      }
    }
  }

  /** What is left once a read has timed out on the first lull (or on the end). */
  function AfterLull(s: seq<Rx>): (rest: seq<Rx>)
    ensures Suffix(rest, s)
  {
    if |s| == 0 then []
    else if s[0] == Lull then s[1..]
    else AfterLull(s[1..])
  }

  /** The candidate octet a scan starts with. */
  function Lead(pending: bool): seq<byte> {
    if pending then [SYNC0] else []
  }

  datatype ScanResult = Found(rest: seq<Rx>) | Lost(rest: seq<Rx>)

  /**
   * The byte-at-a-time header search. `pending` says a `CA` has just been
   * read; the next octet confirms it (`CB`), renews it (`CA`), or drops it.
   * A lull or the end of input is a timeout.
   */
  function Scan(pending: bool, s: seq<Rx>): (r: ScanResult)
    ensures Suffix(r.rest, s)
    ensures |r.rest| < |s| || s == []
    decreases |s|
  {
    if |s| == 0 then Lost([])
    else
      match s[0]
      case Lull => Lost(s[1..])
      case Byte(b) =>
        if pending && b == SYNC1 then Found(s[1..])
        else Scan(b == SYNC0, s[1..])
  }

  /** `t` ends with a header. */
  predicate EndsWithHeader(t: seq<byte>) {
    |t| >= 2 && t[|t| - 2] == SYNC0 && t[|t| - 1] == SYNC1
  }

  /** A successful scan consumed only octets, and they complete a header. */
  lemma {:induction false} ScanConsumesHeader(pending: bool, s: seq<Rx>) returns (pre: seq<byte>)
    requires Scan(pending, s).Found?
    ensures s == Bytes(pre) + Scan(pending, s).rest && EndsWithHeader(Lead(pending) + pre)
    decreases |s|
  {
    assert |s| > 0 && s[0].Byte?;
    var b := s[0].b;
    var tail := s[1..];
    assert s == [Byte(b)] + tail;
    var found := Scan(pending, s).rest;
    if pending && b == SYNC1 {
      assert found == tail;
      assert Bytes([b]) == [Byte(b)];
      assert Lead(pending) + [b] == [SYNC0, SYNC1];
      pre := [b];
    } else {
      assert Scan(pending, s) == Scan(b == SYNC0, tail);
      var pre' := ScanConsumesHeader(b == SYNC0, tail);
      ConsumedStep(pending, b, pre', found, tail, s);
      pre := [b] + pre';
    }
  }

  lemma ConsumedStep(pending: bool, b: byte, pre': seq<byte>, found: seq<Rx>, tail: seq<Rx>, s: seq<Rx>)
    requires s == [Byte(b)] + tail && tail == Bytes(pre') + found
    requires EndsWithHeader(Lead(b == SYNC0) + pre')
    ensures s == Bytes([b] + pre') + found && EndsWithHeader(Lead(pending) + ([b] + pre'))
  {
    BytesAppend([b], pre');
    var t := Lead(pending) + ([b] + pre');
    var t' := Lead(b == SYNC0) + pre';
    if |pre'| >= 2 {
      assert t[|t| - 2] == pre'[|pre'| - 2] == t'[|t'| - 2];
      assert t[|t| - 1] == pre'[|pre'| - 1] == t'[|t'| - 1];
    } else {
      assert t'[0] == SYNC0 && b == SYNC0;
      assert |pre'| == 1 && pre'[0] == SYNC1;
      assert t[|t| - 2] == b;
    }
  }

  /** What `Scan` should return, read off the leftmost header in the heard octets. */
  function ScanSpec(pending: bool, s: seq<Rx>): ScanResult {
    var L := Lead(pending);
    var first := FirstHeader(L + Heard(s));
    if first.None? then Lost(AfterLull(s))
    else Found(s[first.value + 2 - |L|..])
  }

  lemma FirstHeaderSkip(x: byte, t: seq<byte>)
    requires x != SYNC0
    ensures FirstHeader([x] + t) == Shift(FirstHeader(t), 1)
  {
    assert ([x] + t)[1..] == t;
  }

  lemma FirstHeaderSkipPair(y: byte, t: seq<byte>)
    requires y != SYNC1
    ensures FirstHeader([SYNC0, y] + t) == Shift(FirstHeader([y] + t), 1)
  {
    assert ([SYNC0, y] + t)[1..] == [y] + t;
  }

  /** `o` with `d` added to the index it holds. */
  function Shift(o: Option<nat>, d: nat): Option<nat> {
    match o
    case None => None
    case Some(k) => Some(k + d)
  }

  /** After a pending `CA`, a second `CA` moves the leftmost header one place. */
  lemma FirstHeaderAfterPendingSync(H: seq<byte>)
    ensures FirstHeader([SYNC0, SYNC0] + H) == Shift(FirstHeader([SYNC0] + H), 1)
  {
    FirstHeaderSkipPair(SYNC0, H);
  }

  /** After a pending `CA`, an octet that is neither `CA` nor `CB` moves the leftmost header two places. */
  lemma FirstHeaderAfterPendingOther(b: byte, H: seq<byte>)
    requires b != SYNC0 && b != SYNC1
    ensures FirstHeader([SYNC0, b] + H) == Shift(FirstHeader(H), 2)
  {
    FirstHeaderSkipPair(b, H);
    FirstHeaderSkip(b, H);
  }

  /** With nothing pending, an octet other than `CA` moves the leftmost header one place. */
  lemma FirstHeaderAfterFresh(b: byte, H: seq<byte>)
    ensures FirstHeader([b] + H) == Shift(FirstHeader(Lead(b == SYNC0) + H), 1 - |Lead(b == SYNC0)|)
  {
    if b == SYNC0 {
      assert Lead(b == SYNC0) + H == [b] + H;
      assert Shift(FirstHeader([b] + H), 0) == FirstHeader([b] + H);
    } else {
      assert Lead(b == SYNC0) + H == H;
      FirstHeaderSkip(b, H);
    }
  }

  /** One more heard octet shifts the leftmost header by the octets that no longer lead. */
  lemma FirstHeaderStep(pending: bool, b: byte, H: seq<byte>)
    requires !(pending && b == SYNC1)
    ensures FirstHeader(Lead(pending) + [b] + H)
         == Shift(FirstHeader(Lead(b == SYNC0) + H), |Lead(pending)| + 1 - |Lead(b == SYNC0)|)
  {
    if pending {
      assert Lead(pending) + [b] + H == [SYNC0, b] + H;
      if b == SYNC0 {
        assert Lead(b == SYNC0) + H == [SYNC0] + H;
        FirstHeaderAfterPendingSync(H);
      } else {
        assert Lead(b == SYNC0) + H == H;
        FirstHeaderAfterPendingOther(b, H);
      }
    } else {
      assert Lead(pending) + [b] + H == [b] + H;
      FirstHeaderAfterFresh(b, H);
    }
  }

  /** One octet of scanning moves the reference `ScanSpec` along in step with `Scan`. */
  lemma ScanSpecStep(pending: bool, s: seq<Rx>)
    requires |s| > 0 && s[0].Byte? && !(pending && s[0].b == SYNC1)
    ensures ScanSpec(pending, s) == ScanSpec(s[0].b == SYNC0, s[1..])
  {
    var b := s[0].b;
    var tail := s[1..];
    var H := Heard(tail);
    assert Heard(s) == [b] + H;
    var L := Lead(pending);
    var L' := Lead(b == SYNC0);
    assert L + Heard(s) == L + [b] + H;
    FirstHeaderStep(pending, b, H);
    var first' := FirstHeader(L' + H);
    if first'.None? {
      assert AfterLull(s) == AfterLull(tail);
      assert ScanSpec(pending, s) == Lost(AfterLull(s));
      assert ScanSpec(b == SYNC0, tail) == Lost(AfterLull(tail));
    } else {
      var k' := first'.value;
      var d: nat := |L| + 1 - |L'|;
      assert FirstHeader(L + Heard(s)) == Some(k' + d);
      assert s[k' + d + 2 - |L|..] == tail[k' + 2 - |L'|..];
      assert ScanSpec(pending, s) == Found(s[k' + d + 2 - |L|..]);
      assert ScanSpec(b == SYNC0, tail) == Found(tail[k' + 2 - |L'|..]);
    }
  }

  /**
   * The scan stops at the leftmost `CA CB` among the octets heard before the
   * first lull (counting a pending `CA` in front of them) and resumes right
   * after it; with no such pair it times out at the lull.
   */
  lemma {:induction false} ScanFindsFirstHeader(pending: bool, s: seq<Rx>)
    ensures Scan(pending, s) == ScanSpec(pending, s)
    decreases |s|
  {
    var L := Lead(pending);
    if |s| == 0 {
      assert L + Heard(s) == L;
    } else if s[0] == Lull {
      assert L + Heard(s) == L;
    } else {
      var b := s[0].b;
      var tail := s[1..];
      assert s == [Byte(b)] + tail;
      if pending && b == SYNC1 {
        assert Heard(s) == [b] + Heard(tail);
        assert L + Heard(s) == [SYNC0, SYNC1] + Heard(tail);
      } else {
        ScanFindsFirstHeader(b == SYNC0, tail);
        ScanSpecStep(pending, s);
      }
    }
  }

  /** A sync octet repeated before the header is skipped: the header is matched at the second `CA`. */
  lemma RepeatedSyncIsMatched(junk: byte, rest: seq<Rx>)
    requires junk != SYNC0
    ensures Scan(false, Bytes([junk, SYNC0, SYNC0, SYNC1]) + rest) == Found(rest)
  {
    var s := Bytes([junk, SYNC0, SYNC0, SYNC1]) + rest;
    assert s[0] == Byte(junk) && s[1..][0] == Byte(SYNC0);
    assert s[1..][1..] == s[2..] && s[2..][0] == Byte(SYNC0);
    assert s[2..][1..] == s[3..] && s[3..][0] == Byte(SYNC1);
    assert s[3..][1..] == rest;
    assert Scan(true, s[3..]) == Found(rest);
    assert Scan(true, s[2..]) == Found(rest);
    assert Scan(true, s[1..]) == Found(rest);
  }

  /** Position of the first `x` in `b`, as `bytes.index`; `None` where it raises ValueError. */
  function IndexOf(b: seq<byte>, x: byte): (r: Option<nat>)
    ensures r.Some? ==> r.value < |b| && b[r.value] == x && forall j :: 0 <= j < r.value ==> b[j] != x
    ensures r.None? ==> x !in b
  {
    if |b| == 0 then None
    else if b[0] == x then Some(0)
    else
      match IndexOf(b[1..], x)
      case None => None
      case Some(i) => Some(i + 1)
  }

  datatype Received = Frame(octets: seq<byte>, rest: seq<Rx>) | Timeout(rest: seq<Rx>)

  /** After a header has been found: read the six octets that complete the frame. */
  function Complete(scan: ScanResult): (r: Received)
    ensures Suffix(r.rest, scan.rest)
    ensures r.Frame? ==>
              && scan.Found?
              && |r.octets| == RESPONSE_LEN
              && r.octets[..2] == [SYNC0, SYNC1]
              && scan.rest == Bytes(r.octets[2..]) + r.rest
  {
    match scan
    case Lost(rest) => Timeout(rest)
    case Found(rest) =>
      match Read(6, rest)
      case TimedOut(rest') => Timeout(rest')
      case Got(tail, rest') =>
        assert ([SYNC0, SYNC1] + tail)[2..] == tail;
        Frame([SYNC0, SYNC1] + tail, rest')
  }

  /**
   * Recovery after a misaligned eight-octet read `b`: a header inside `b`
   * whose `CB` is also inside it is completed from the input; otherwise the
   * input is scanned, with `b`'s last octet as a pending `CA` when it is
   * `b`'s first `CA`, and the remainder of `b` is dropped.
   */
  function Realign(b: seq<byte>, rest: seq<Rx>): (r: Received)
    requires |b| == RESPONSE_LEN
    ensures Suffix(r.rest, rest)
    ensures r.Frame? ==> |r.octets| == RESPONSE_LEN && r.octets[..2] == [SYNC0, SYNC1]
  {
    RealignFrom(b, IndexOf(b, SYNC0), rest)
  }

  /** `Realign` once the first `CA` of the read, if any, is known to be at `first`. */
  function RealignFrom(b: seq<byte>, first: Option<nat>, rest: seq<Rx>): (r: Received)
    requires |b| == RESPONSE_LEN && (first.Some? ==> first.value < RESPONSE_LEN && b[first.value] == SYNC0)
    ensures Suffix(r.rest, rest)
    ensures r.Frame? ==> |r.octets| == RESPONSE_LEN && r.octets[..2] == [SYNC0, SYNC1]
  {
    match first
    case None => Complete(Scan(false, rest))
    case Some(idx) =>
      if idx + 1 < RESPONSE_LEN then
        if b[idx + 1] == SYNC1 then CompleteFromBuffer(b, idx, rest)
        else Complete(Scan(false, rest))
      else Complete(Scan(true, rest))
  }

  /** A header at `idx` of the read: its frame is the read from `idx` on plus `idx` more octets. */
  function CompleteFromBuffer(b: seq<byte>, idx: nat, rest: seq<Rx>): (r: Received)
    requires |b| == RESPONSE_LEN && idx + 1 < RESPONSE_LEN && b[idx] == SYNC0 && b[idx + 1] == SYNC1
    ensures Suffix(r.rest, rest)
    ensures r.Frame? ==> |r.octets| == RESPONSE_LEN && r.octets[..2] == [SYNC0, SYNC1]
    ensures r.Frame? ==> rest == Bytes(r.octets[RESPONSE_LEN - idx..]) + r.rest && r.octets[..RESPONSE_LEN - idx] == b[idx..]
  {
    match Read(idx, rest)
    case TimedOut(rest') => Timeout(rest')
    case Got(more, rest') =>
      var f := b[idx..] + more;
      assert f[0] == SYNC0 && f[1] == SYNC1;
      assert f[RESPONSE_LEN - idx..] == more && f[..RESPONSE_LEN - idx] == b[idx..];
      Frame(f, rest')
  }

  /**
   * The eight-octet read of a query: an aligned read is returned as is, a
   * misaligned one goes through `Realign`. Any timeout is `Timeout`, which
   * `writeFunction` reports as `False`.
   */
  function Receive(s: seq<Rx>): (r: Received)
    ensures Suffix(r.rest, s)
    ensures |r.rest| < |s| || s == []
    ensures r.Frame? ==> |r.octets| == RESPONSE_LEN && r.octets[..2] == [SYNC0, SYNC1]
  {
    match Read(RESPONSE_LEN, s)
    case TimedOut(rest) => Timeout(rest)
    case Got(b, rest) =>
      assert |rest| < |s| by { assert |Bytes(b)| == RESPONSE_LEN; }
      if b[0] == SYNC0 && b[1] == SYNC1 then Frame(b, rest)
      else
        var r := Realign(b, rest);
        SuffixTransitive(r.rest, rest, s);
        r
  }

  /** Octets already aligned on a header are returned as they are. */
  lemma ReceiveAligned(f: seq<byte>, rest: seq<Rx>)
    requires |f| == RESPONSE_LEN && f[0] == SYNC0 && f[1] == SYNC1
    ensures Receive(Bytes(f) + rest) == Frame(f, rest)
  {
    ReadAvailable(f, rest);
  }

  lemma {:induction false} HeardAppend(pre: seq<byte>, rest: seq<Rx>)
    ensures Heard(Bytes(pre) + rest) == pre + Heard(rest)
    decreases |pre|
  {
    if |pre| > 0 {
      var s := Bytes(pre) + rest;
      assert s[0] == Byte(pre[0]);
      assert s[1..] == Bytes(pre[1..]) + rest;
      HeardAppend(pre[1..], rest);
      assert Heard(s) == [pre[0]] + Heard(s[1..]);
      assert pre == [pre[0]] + pre[1..];
      assert [pre[0]] + (pre[1..] + Heard(rest)) == pre + Heard(rest);
    } else {
      assert Bytes(pre) + rest == rest;
    }
  }

  lemma BufferedFrameIsLastWindow(b: seq<byte>, idx: nat, rest: seq<Rx>) returns (junk: seq<byte>)
    requires |b| == RESPONSE_LEN && idx + 1 < RESPONSE_LEN && b[idx] == SYNC0 && b[idx + 1] == SYNC1
    requires CompleteFromBuffer(b, idx, rest).Frame?
    ensures Bytes(b) + rest == Bytes(junk + CompleteFromBuffer(b, idx, rest).octets) + CompleteFromBuffer(b, idx, rest).rest
  {
    var r := CompleteFromBuffer(b, idx, rest);
    var more := r.octets[RESPONSE_LEN - idx..];
    assert r.octets == b[idx..] + more;
    junk := b[..idx];
    assert junk + r.octets == b + more;
    BytesAppend(b, more);
  }

  lemma ScannedFrameIsLastWindow(b: seq<byte>, pending: bool, rest: seq<Rx>) returns (junk: seq<byte>)
    requires |b| == RESPONSE_LEN && (pending ==> b[RESPONSE_LEN - 1] == SYNC0)
    requires Complete(Scan(pending, rest)).Frame?
    ensures Bytes(b) + rest == Bytes(junk + Complete(Scan(pending, rest)).octets) + Complete(Scan(pending, rest)).rest
  {
    var scan := Scan(pending, rest);
    var r := Complete(scan);
    var pre := ScanConsumesHeader(pending, rest);
    var tail := r.octets[2..];
    assert r.octets == [SYNC0, SYNC1] + tail;
    JoinEndsWithHeader(b, pending, pre);
    junk := AssembleWindow(b, pre, tail, r.rest, rest);
  }

  lemma JoinEndsWithHeader(b: seq<byte>, pending: bool, pre: seq<byte>)
    requires |b| == RESPONSE_LEN && (pending ==> b[RESPONSE_LEN - 1] == SYNC0)
    requires EndsWithHeader(Lead(pending) + pre) && |pre| >= 1
    ensures EndsWithHeader(b + pre)
  {
    var all := b + pre;
    var t := Lead(pending) + pre;
    assert all[|all| - 1] == pre[|pre| - 1] == t[|t| - 1];
    if |pre| == 1 {
      assert all[|all| - 2] == b[RESPONSE_LEN - 1];
      assert t[|t| - 2] == SYNC0 && pending;
    } else {
      assert all[|all| - 2] == pre[|pre| - 2] == t[|t| - 2];
    }
  }

  lemma AssembleWindow(b: seq<byte>, pre: seq<byte>, tail: seq<byte>, after: seq<Rx>, rest: seq<Rx>) returns (junk: seq<byte>)
    requires EndsWithHeader(b + pre)
    requires rest == Bytes(pre) + (Bytes(tail) + after)
    ensures Bytes(b) + rest == Bytes(junk + ([SYNC0, SYNC1] + tail)) + after
  {
    var all := b + pre;
    junk := all[..|all| - 2];
    assert all[|all| - 2..] == [SYNC0, SYNC1];
    assert all == junk + [SYNC0, SYNC1];
    assert junk + ([SYNC0, SYNC1] + tail) == (b + pre) + tail;
    BytesAppend(b, pre);
    BytesAppend(b + pre, tail);
    ConcatRegroup(Bytes(b), Bytes(pre), Bytes(tail), after);
  }

  /** The frame a recovery returns is the last eight octets it consumed, and it consumed no lull. */
  lemma RealignedFrameIsLastWindow(b: seq<byte>, rest: seq<Rx>) returns (junk: seq<byte>)
    requires |b| == RESPONSE_LEN && Realign(b, rest).Frame?
    ensures Bytes(b) + rest == Bytes(junk + Realign(b, rest).octets) + Realign(b, rest).rest
  {
    var first := IndexOf(b, SYNC0);
    assert Realign(b, rest) == RealignFrom(b, first, rest);
    if first.None? {
      junk := ScannedFrameIsLastWindow(b, false, rest);
    } else if first.value + 1 == RESPONSE_LEN {
      junk := ScannedFrameIsLastWindow(b, true, rest);
    } else {
      if b[first.value + 1] == SYNC1 {
        junk := BufferedFrameIsLastWindow(b, first.value, rest);
      } else {
        junk := ScannedFrameIsLastWindow(b, false, rest);
      }
    }
  }

  /**
   * Whatever frame `Receive` returns is the last eight octets it consumed,
   * and nothing it consumed was a lull.
   */
  lemma ReceivedFrameIsLastWindow(s: seq<Rx>) returns (junk: seq<byte>)
    ensures Receive(s).Frame? ==> s == Bytes(junk + Receive(s).octets) + Receive(s).rest
  {
    junk := [];
    var read := Read(RESPONSE_LEN, s);
    if read.TimedOut? {
      assert Receive(s) == Timeout(read.rest);
    } else {
      var b, rest := read.octets, read.rest;
      if b[0] == SYNC0 && b[1] == SYNC1 {
        assert Receive(s) == Frame(b, rest);
        assert junk + b == b;
      } else {
        assert Receive(s) == Realign(b, rest);
        if Realign(b, rest).Frame? {
          junk := RealignedFrameIsLastWindow(b, rest);
        }
      }
    }
  }

  /** With no `CA CB` heard before the first lull, no frame is ever returned. */
  lemma NoHeaderNoFrame(s: seq<Rx>)
    requires forall k :: !HeaderAt(Heard(s), k)
    ensures Receive(s).Timeout?
  {
    if Receive(s).Frame? {
      var f := Receive(s).octets;
      var junk := ReceivedFrameIsLastWindow(s);
      HeardAppend(junk + f, Receive(s).rest);
      HeaderInside(junk, f, Heard(Receive(s).rest));
    }
  }

  lemma HeaderInside(junk: seq<byte>, f: seq<byte>, h: seq<byte>)
    requires |f| >= 2 && f[..2] == [SYNC0, SYNC1]
    ensures HeaderAt(junk + f + h, |junk|)
  {
    assert f[0] == SYNC0 && f[1] == SYNC1;
  }

  // ---------------------------------------------------------------------
  // The search loop as the source writes it.

  datatype Seek = Holding(buf: seq<byte>, rest: seq<Rx>) | Dropped(rest: seq<Rx>)

  /** The inner loop: while `bytee[0]` is not `CA`, replace `bytee` by one freshly read octet. */
  function SeekSync(bytee: seq<byte>, s: seq<Rx>): (r: Seek)
    requires |bytee| >= 1
    ensures Suffix(r.rest, s)
    ensures r.Holding? ==> bytee[0] == SYNC0 ==> r == Holding(bytee, s)
    ensures r.Holding? ==> bytee[0] != SYNC0 ==> r.buf == [SYNC0]
    decreases |s|
  {
    if bytee[0] == SYNC0 then Holding(bytee, s)
    else
      match ReadOctet(s)
      case TimedOut(rest) => Dropped(rest)
      case Got(one, rest) =>
        assert |one| == 1 && |rest| == |s| - 1;
        var r := SeekSync(one, rest);
        assert Suffix(r.rest, rest);
        r
  }

  /** The scratch buffer at the top of the outer loop: after a wrong second octet only `[bytee[1], 0x00]` is kept. */
  function Kept(bytee: seq<byte>): (held: seq<byte>)
    requires |bytee| >= 1
    ensures |held| >= 1 && (|bytee| == 2 ==> held[0] == bytee[1])
    ensures |bytee| != 2 ==> held == bytee
  {
    if |bytee| == 2 then [bytee[1], 0x00] else bytee
  }

  /**
   * The outer loop as written, on the scratch buffer `bytee`: it stops when
   * `bytee` is exactly `CA CB`; after a wrong second octet it keeps
   * `[bytee[1], 0x00]`, two octets, so a second `CA` is followed by a third
   * octet appended to it.
   */
  function ScanAsWritten(bytee: seq<byte>, s: seq<Rx>): (r: ScanResult)
    requires |bytee| >= 1
    ensures Suffix(r.rest, s)
    decreases |s|
  {
    if |bytee| == 2 && bytee[0] == SYNC0 && bytee[1] == SYNC1 then Found(s)
    else
      match SeekSync(Kept(bytee), s)
      case Dropped(rest) => Lost(rest)
      case Holding(buf, rest) =>
        match ReadOctet(rest)
        case TimedOut(rest') => Lost(rest')
        case Got(one, rest') =>
          assert |buf + one| >= 1 && |rest'| == |rest| - 1 && |rest| <= |s|;
          var r := ScanAsWritten(buf + one, rest');
          assert Suffix(r.rest, rest');
          r
  }

  /** With a long scratch buffer that starts with `CA`, one round of the loop appends one octet. */
  lemma OverlongStep(bytee: seq<byte>, s: seq<Rx>)
    requires |bytee| >= 3 && bytee[0] == SYNC0
    ensures ReadOctet(s).TimedOut? ==> ScanAsWritten(bytee, s) == Lost(ReadOctet(s).rest)
    ensures ReadOctet(s).Got? ==> ScanAsWritten(bytee, s) == ScanAsWritten(bytee + ReadOctet(s).octets, ReadOctet(s).rest)
  {
    assert SeekSync(bytee, s) == Holding(bytee, s);
  }

  /** Once the scratch buffer is longer than two octets and starts with `CA`, the loop can only time out. */
  lemma {:induction false} OverlongBufferNeverSyncs(bytee: seq<byte>, s: seq<Rx>)
    requires |bytee| >= 3 && bytee[0] == SYNC0
    ensures ScanAsWritten(bytee, s).Lost?
    decreases |s|
  {
    OverlongStep(bytee, s);
    var r := ReadOctet(s);
    if r.Got? {
      OverlongBufferNeverSyncs(bytee + r.octets, r.rest);
    }
  }

  /**
   * The stream `CA CA CB ...` after a misaligned read: as written the loop
   * reads until the next timeout and never reports the header; the
   * evidently intended search finds it at the second `CA`.
   */
  lemma CaCaCbIsMissed(rest: seq<Rx>)
    ensures ScanAsWritten([0x00], Bytes([SYNC0, SYNC0, SYNC1]) + rest).Lost?
    ensures Scan(false, Bytes([SYNC0, SYNC0, SYNC1]) + rest) == Found(rest)
  {
    var s := Bytes([SYNC0, SYNC0, SYNC1]) + rest;
    var s1, s2 := s[1..], s[2..];
    assert s[0] == Byte(SYNC0) && s1[0] == Byte(SYNC0) && s2[0] == Byte(SYNC1);
    assert s1[1..] == s2 && s2[1..] == rest;
    assert ReadOctet(s) == Got([SYNC0], s1);
    assert SeekSync([0x00], s) == Holding([SYNC0], s1);
    assert ReadOctet(s1) == Got([SYNC0], s2);
    var cc: seq<byte> := [SYNC0, SYNC0];
    var c0: seq<byte> := [SYNC0, 0x00];
    var c0b: seq<byte> := [SYNC0, 0x00, SYNC1];
    assert [SYNC0] + [SYNC0] == cc;
    assert ScanAsWritten([0x00], s) == ScanAsWritten(cc, s2);
    assert SeekSync(c0, s2) == Holding(c0, s2);
    assert ReadOctet(s2) == Got([SYNC1], rest);
    assert c0 + [SYNC1] == c0b;
    assert ScanAsWritten(cc, s2) == ScanAsWritten(c0b, rest);
    OverlongBufferNeverSyncs(c0b, rest);
    assert Scan(false, s) == Scan(true, s1) == Scan(true, s2) == Found(rest);
  }

  // ---------------------------------------------------------------------
  // Where the loop as written and the corrected search agree.

  /**
   * The `pending` flag of `Scan` that a scratch buffer `bytee` (not itself
   * `CA CB`) stands for; `None` for a buffer the loop as written can no
   * longer complete.
   */
  function Held(bytee: seq<byte>): Option<bool>
    requires |bytee| >= 1
  {
    if |bytee| == 1 then Some(bytee[0] == SYNC0)
    else if |bytee| == 2 then (if bytee[1] == SYNC0 then None else Some(false))
    else if bytee[0] == SYNC0 then None
    else Some(false)
  }

  /** The inner loop skips octets up to and including a `CA`, as a scan with nothing pending does. */
  lemma {:induction false} SeekSyncSkips(bytee: seq<byte>, s: seq<Rx>)
    requires |bytee| >= 1 && bytee[0] != SYNC0
    ensures SeekSync(bytee, s).Holding? ==>
              && SeekSync(bytee, s).buf == [SYNC0]
              && |SeekSync(bytee, s).rest| < |s|
              && Scan(false, s) == Scan(true, SeekSync(bytee, s).rest)
    decreases |s|
  {
    if |s| > 0 && s[0].Byte? {
      var b := s[0].b;
      assert ReadOctet(s) == Got([b], s[1..]);
      if b != SYNC0 {
        SeekSyncSkips([b], s[1..]);
      }
    }
  }

  /** A scratch buffer that `Held` gives up on is never completed: the loop times out. */
  lemma BufferIsDoomed(bytee: seq<byte>, s: seq<Rx>)
    requires |bytee| >= 2 && !(|bytee| == 2 && bytee[0] == SYNC0 && bytee[1] == SYNC1)
    requires Held(bytee).None?
    ensures ScanAsWritten(bytee, s).Lost?
  {
    if |bytee| >= 3 {
      OverlongBufferNeverSyncs(bytee, s);
    } else {
      var held := [bytee[1], 0x00];
      assert SeekSync(held, s) == Holding(held, s);
      if ReadOctet(s).Got? {
        OverlongBufferNeverSyncs(held + ReadOctet(s).octets, ReadOctet(s).rest);
      }
    }
  }

  /** One octet read after a held `CA`, by the loop as written and by the corrected search. */
  lemma HeldSyncReads(o: byte, rest: seq<Rx>)
    ensures ScanAsWritten([SYNC0], [Byte(o)] + rest) == ScanAsWritten([SYNC0, o], rest)
    ensures o != SYNC0 && o != SYNC1 ==> Scan(true, [Byte(o)] + rest) == Scan(false, rest)
  {
    var s := [Byte(o)] + rest;
    assert s[1..] == rest;
    assert SeekSync([SYNC0], s) == Holding([SYNC0], s) && ReadOctet(s) == Got([o], rest);
  }

  /** From a held `CA`, whatever the loop as written finds, the corrected search finds with a `CA` pending. */
  lemma {:induction false} PendingAsWritten(s: seq<Rx>)
    ensures ScanAsWritten([SYNC0], s).Found? ==> ScanAsWritten([SYNC0], s) == Scan(true, s)
    decreases |s|, 0
  {
    if |s| > 0 && s[0].Byte? {
      var o := s[0].b;
      assert s == [Byte(o)] + s[1..];
      HeldSyncReads(o, s[1..]);
      if o == SYNC0 {
        BufferIsDoomed([SYNC0, o], s[1..]);
      } else if o != SYNC1 {
        SeekingAsWritten([SYNC0, o], s[1..]);
      }
    }
  }

  /**
   * From a scratch buffer that stands for nothing pending, whatever the loop
   * as written finds, the corrected search finds with nothing pending.
   */
  lemma {:induction false} SeekingAsWritten(bytee: seq<byte>, s: seq<Rx>)
    requires |bytee| >= 1 && !(|bytee| == 2 && bytee[0] == SYNC0 && bytee[1] == SYNC1)
    requires Held(bytee) == Some(false)
    ensures ScanAsWritten(bytee, s).Found? ==> ScanAsWritten(bytee, s) == Scan(false, s)
    decreases |s|, 1
  {
    SeekThenHold(bytee, s);
    match SeekSync(Kept(bytee), s)
    case Dropped(_) =>
    case Holding(_, rest) =>
      PendingAsWritten(rest);
  }

  /** After the inner loop has found a `CA`, the loop as written goes on as from a held `CA`. */
  lemma SeekThenHold(bytee: seq<byte>, s: seq<Rx>)
    requires |bytee| >= 1 && !(|bytee| == 2 && bytee[0] == SYNC0 && bytee[1] == SYNC1)
    requires Held(bytee) == Some(false)
    ensures SeekSync(Kept(bytee), s).Dropped? ==> ScanAsWritten(bytee, s).Lost?
    ensures SeekSync(Kept(bytee), s).Holding? ==>
              && |SeekSync(Kept(bytee), s).rest| < |s|
              && ScanAsWritten(bytee, s) == ScanAsWritten([SYNC0], SeekSync(Kept(bytee), s).rest)
              && Scan(false, s) == Scan(true, SeekSync(Kept(bytee), s).rest)
  {
    SeekSyncSkips(Kept(bytee), s);
    var rest := SeekSync(Kept(bytee), s).rest;
    assert SeekSync(Kept([SYNC0]), rest) == Holding([SYNC0], rest);
  }

  /**
   * Whenever the loop as written finds a header, the corrected search
   * finds the same one, from the state the scratch buffer stands for.
   */
  lemma AsWrittenFoundIsScan(bytee: seq<byte>, s: seq<Rx>)
    requires |bytee| >= 1 && !(|bytee| == 2 && bytee[0] == SYNC0 && bytee[1] == SYNC1)
    ensures ScanAsWritten(bytee, s).Found? ==>
              Held(bytee).Some? && ScanAsWritten(bytee, s) == Scan(Held(bytee).value, s)
  {
    if Held(bytee).None? {
      BufferIsDoomed(bytee, s);
    } else if Held(bytee) == Some(true) {
      assert bytee == [SYNC0];
      PendingAsWritten(s);
    } else {
      SeekingAsWritten(bytee, s);
    }
  }

  /** `Realign` with the search loop as written. */
  function RealignAsWritten(b: seq<byte>, rest: seq<Rx>): (r: Received)
    requires |b| == RESPONSE_LEN
    ensures Suffix(r.rest, rest)
    ensures r.Frame? ==> |r.octets| == RESPONSE_LEN && r.octets[..2] == [SYNC0, SYNC1]
  {
    match IndexOf(b, SYNC0)
    case None => Complete(ScanAsWritten([0x00], rest))
    case Some(idx) =>
      if idx + 1 < RESPONSE_LEN then
        if b[idx + 1] == SYNC1 then CompleteFromBuffer(b, idx, rest)
        else Complete(ScanAsWritten([0x00], rest))
      else Complete(ScanAsWritten([b[idx]], rest))
  }

  /** `Receive` with the search loop as written. */
  function ReceiveAsWritten(s: seq<Rx>): (r: Received)
    ensures Suffix(r.rest, s)
    ensures r.Frame? ==> |r.octets| == RESPONSE_LEN && r.octets[..2] == [SYNC0, SYNC1]
  {
    match Read(RESPONSE_LEN, s)
    case TimedOut(rest) => Timeout(rest)
    case Got(b, rest) =>
      if b[0] == SYNC0 && b[1] == SYNC1 then Frame(b, rest)
      else
        var r := RealignAsWritten(b, rest);
        SuffixTransitive(r.rest, rest, s);
        r
  }

  /** Every frame the recovery as written returns is the frame `Realign` returns. */
  lemma RealignAsWrittenAgrees(b: seq<byte>, rest: seq<Rx>)
    requires |b| == RESPONSE_LEN
    ensures RealignAsWritten(b, rest).Frame? ==> RealignAsWritten(b, rest) == Realign(b, rest)
  {
    AsWrittenFoundIsScan([0x00], rest);
    match IndexOf(b, SYNC0)
    case None =>
    case Some(idx) =>
      if idx + 1 >= RESPONSE_LEN {
        assert b[idx] == SYNC0;
        AsWrittenFoundIsScan([b[idx]], rest);
      }
  }

  /**
   * Every frame the reception as written returns is the frame the corrected
   * reception returns, with the same input left; they differ only where the
   * code as written times out (`CaCaCbIsMissed`).
   */
  lemma ReceiveAsWrittenAgrees(s: seq<Rx>)
    ensures ReceiveAsWritten(s).Frame? ==> ReceiveAsWritten(s) == Receive(s)
  {
    match Read(RESPONSE_LEN, s)
    case TimedOut(_) =>
    case Got(b, rest) =>
      RealignAsWrittenAgrees(b, rest);
  }
}

=== FILE: transcoder.dfy ===
/**
 * Conversion between payload octets and physical values: `getVal`'s decoding
 * of a three-octet reply payload and `setVal`'s encoding of a requested value
 * into a two-octet command payload. Python's floats are modelled by exact
 * reals; Python's exceptions that escape these paths are `Exception` values.
 */
module Transcoder {
  import opened Base
  import opened BigEndian
  import opened Registers

  type Hour = h: int | 0 <= h < 24
  type Sexagesimal = m: int | 0 <= m < 60

  /** A `datetime.time` at whole-second resolution. */
  datatype Clock = Clock(hour: Hour, minute: Sexagesimal, second: Sexagesimal)

  function Seconds(t: Clock): nat {
    t.hour * 3600 + t.minute * 60 + t.second
  }

  /** The clock reading `n` seconds after midnight. */
  function ClockOf(n: nat): (t: Clock)
    requires n < 86400
    ensures Seconds(t) == n
  {
    Clock(n / 3600, (n % 3600) / 60, n % 60)
  }

  lemma {:induction false} ClockSecondsRoundTrip(t: Clock)
    ensures ClockOf(Seconds(t)) == t
  {
    var n := Seconds(t);
    var rest := t.minute * 60 + t.second;
    assert 0 <= rest < 3600;
    assert n / 3600 == t.hour && n % 3600 == rest;
    assert rest / 60 == t.minute && rest % 60 == t.second;
    assert n % 60 == t.second;
  }

  /** A stored reading: a number, or a time of day for the duration registers. */
  datatype Value = Scalar(x: real) | Duration(t: Clock)

  /** Python exceptions the driver lets escape. */
  datatype Exception = ValueError | OverflowError

  /** A value handed to `command`: a float, a `time`, or an int (booleans are ints). */
  datatype Setting = Real(x: real) | TimeOfDay(t: Clock) | Int(i: int)

  /**
   * Python `==` between a stored reading and a requested setting: a number
   * never equals a time, and an int equals the float of the same value.
   */
  predicate Matches(v: Value, s: Setting)
    ensures Matches(v, s) ==> (v.Duration? <==> s.TimeOfDay?)
  {
    match s
    case Real(y) => v.Scalar? && v.x == y
    case Int(i) => v.Scalar? && v.x == i as real
    case TimeOfDay(u) => v.Duration? && v.t == u
  }

  /** The reading a setting would be stored as: ints are promoted to floats. */
  function Promote(s: Setting): (v: Value)
    ensures v.Duration? <==> s.TimeOfDay?
  {
    match s
    case Real(y) => Scalar(y)
    case Int(i) => Scalar(i as real)
    case TimeOfDay(u) => Duration(u)
  }

  /** A reading matches a setting exactly when it is the setting's promoted value. */
  lemma MatchesIsPromotedEquality(v: Value, s: Setting)
    ensures Matches(v, s) <==> v == Promote(s)
  {
  }

  /**
   * Decodes a reply payload for register `code`. The duration registers give
   * hours, minutes and seconds, raising ValueError (from `time(...)`) when
   * one is out of range; every other register gives its 24-bit raw count
   * divided by the register's scale.
   */
  function DecodeValue(code: byte, payload: seq<byte>): (r: Result<Value, Exception>)
    requires |payload| == 3
    ensures IsDuration(code) ==> (r.Ok? <==> payload[0] < 24 && payload[1] < 60 && payload[2] < 60)
    ensures IsDuration(code) && r.Ok? ==>
              r.value.Duration? && [r.value.t.hour, r.value.t.minute, r.value.t.second] == payload
    ensures IsDuration(code) && !r.Ok? ==> r.error == ValueError
    ensures !IsDuration(code) ==>
              r.Ok? && r.value.Scalar? && r.value.x * Scale(code) == FromBigEndian(payload) as real
  {
    if IsDuration(code) then
      if payload[0] < 24 && payload[1] < 60 && payload[2] < 60
      then Ok(Duration(Clock(payload[0], payload[1], payload[2])))
      else Err(ValueError)
    else
      Ok(Scalar(FromBigEndian(payload) as real / Scale(code)))
  }

  /** A scalar register reporting raw count `n` decodes to `n / scale`; the reply's three octets carry any 24-bit count. */
  lemma ScalarReadingRoundTrip(code: byte, n: nat)
    requires !IsDuration(code) && n < Pow256(3)
    ensures DecodeValue(code, ToBigEndian(n, 3)) == Ok(Scalar(n as real / Scale(code)))
  {
  }

  /** A duration register decodes every in-range time of day to itself. */
  lemma DurationReadingRoundTrip(code: byte, t: Clock)
    requires IsDuration(code)
    ensures DecodeValue(code, [t.hour, t.minute, t.second]) == Ok(Duration(t))
  {
  }

  /** `00 03 E8` from the voltage register is 1000 mV, that is 1.0 V. */
  lemma VoltageOfOneVolt()
    ensures DecodeValue(VOLTAGE, [0x00, 0x03, 0xE8]) == Ok(Scalar(1.0))
  {
    var payload: seq<byte> := [0x00, 0x03, 0xE8];
    ThreeOctets(payload);
    assert FromBigEndian(payload) == 1000;
  }

  /** An all-zero payload from a scalar register is the reading 0.0. */
  lemma ZeroPayloadIsZero(code: byte)
    requires !IsDuration(code)
    ensures DecodeValue(code, [0, 0, 0]) == Ok(Scalar(0.0))
  {
    ThreeOctets([0, 0, 0]);
  }

  /** `int(i)` of `modf`: the integer part, rounded toward zero. */
  function Trunc(x: real): (t: int)
    ensures x >= 0.0 ==> t as real <= x < t as real + 1.0
    ensures x < 0.0 ==> t as real - 1.0 < x <= t as real
  {
    if x >= 0.0 then x.Floor else -((-x).Floor)
  }

  /** Python's `round` on a real: nearest integer, ties to the even one. */
  function RoundHalfEven(y: real): (n: int)
    ensures -0.5 <= n as real - y <= 0.5
    ensures (n as real - y == 0.5 || y - n as real == 0.5) ==> n % 2 == 0
  {
    var f := y.Floor;
    var d := y - f as real;
    if d < 0.5 then f
    else if d > 0.5 then f + 1
    else if f % 2 == 0 then f
    else f + 1
  }

  /** Largest value `to_bytes(2, 'big')` accepts, plus one. */
  const TWO_OCTETS: nat := 0x10000

  lemma TwoOctetRange()
    ensures Pow256(2) == TWO_OCTETS
  {
  }

  /** The payload for a float: integer part and hundredths; `bytearray` raises ValueError outside 0..255. */
  function EncodeReal(x: real): (r: Result<seq<byte>, Exception>)
    ensures r.Ok? <==> -0.005 <= x < 256.0
    ensures r.Ok? ==>
              && |r.value| == 2
              && -0.005 <= r.value[0] as real + r.value[1] as real / 100.0 - x <= 0.005
    ensures r.Ok? && x >= 0.0 ==> r.value[0] == x.Floor
    ensures !r.Ok? ==> r.error == ValueError
  {
    var whole := Trunc(x);
    var hundredths := RoundHalfEven((x - whole as real) * 100.0);
    if 0 <= whole < 256 && 0 <= hundredths < 256 then
      Ok([whole, hundredths])
    else
      Err(ValueError)
  }

  /**
   * `setVal`'s payload for set register `code`: a float becomes integer part
   * and hundredths; a time becomes its total seconds as two big-endian octets;
   * a non-zero int on the output switch becomes `[1, 0]`; any other int
   * becomes two big-endian octets. `to_bytes` raises OverflowError for a
   * negative value or one of 65536 and above.
   */
  function EncodeSetting(code: byte, v: Setting): (r: Result<seq<byte>, Exception>)
    ensures r.Ok? ==> |r.value| == 2
    ensures v.Real? ==> r == EncodeReal(v.x)
    ensures v.TimeOfDay? ==> (r.Ok? <==> Seconds(v.t) < TWO_OCTETS)
    ensures v.TimeOfDay? && r.Ok? ==> FromBigEndian(r.value) == Seconds(v.t)
    ensures v.Int? && code == OUTPUT_ON && v.i != 0 ==> r == Ok([1, 0])
    ensures v.Int? && !(code == OUTPUT_ON && v.i != 0) ==> (r.Ok? <==> 0 <= v.i < TWO_OCTETS)
    ensures v.Int? && !(code == OUTPUT_ON && v.i != 0) && r.Ok? ==> FromBigEndian(r.value) == v.i
    ensures (v.TimeOfDay? || v.Int?) && !r.Ok? ==> r.error == OverflowError
  {
    TwoOctetRange();
    match v
    case Real(x) => EncodeReal(x)
    case TimeOfDay(t) =>
      var total := Seconds(t);
      if total < TWO_OCTETS then Ok(ToBigEndian(total, 2)) else Err(OverflowError)
    case Int(i) =>
      if code == OUTPUT_ON && i != 0 then Ok([1, 0])
      else if 0 <= i < TWO_OCTETS then Ok(ToBigEndian(i, 2))
      else Err(OverflowError)
  }

  /** A value given in hundredths encodes exactly as `[whole, hundredths]`. */
  lemma {:induction false} HundredthsEncodeExactly(code: byte, c: nat)
    requires c < 25600
    ensures EncodeSetting(code, Real(c as real / 100.0)) == Ok([c / 100, c % 100])
  {
    var x := c as real / 100.0;
    assert x == (c / 100) as real + (c % 100) as real / 100.0;
    assert Trunc(x) == c / 100;
    assert (x - (c / 100) as real) * 100.0 == (c % 100) as real;
    assert RoundHalfEven((c % 100) as real) == c % 100;
  }

  /** A time's payload, read as seconds, gives the same time back. */
  lemma TimePayloadRoundTrip(code: byte, t: Clock)
    requires Seconds(t) < TWO_OCTETS
    ensures EncodeSetting(code, TimeOfDay(t)).Ok?
    ensures ClockOf(FromBigEndian(EncodeSetting(code, TimeOfDay(t)).value)) == t
  {
    ClockSecondsRoundTrip(t);
  }
}
